=== FILE: README.md ===
# octoparse-export, modelled in Dafny

The program reads a list of scraping tasks from a spreadsheet. For each task row it:

1. resolves the task's name, if the row has none;
2. marks the row "In Progress";
3. fetches the task's extracted records from the scraping service;
4. writes them to a temporary CSV file and uploads it to a cloud drive under `<root>/<task name>/<timestamp>/data.csv`;
5. records the file link, record count, status and update time back in the row.

A run processes the rows in order and counts successes, empty tasks and failures.

This project models that core in five modules:

* `Outcomes` holds the shared vocabulary:
  * `Option`;
  * `Attempt`, a call that returns a value or raises with a message;
  * `Take`, Python's `s[:n]`.
* `Sheets` models the spreadsheet adapter:
  * the header names;
  * how task rows are read, with English-then-Japanese header fallback, row numbers from 2, and rows without an id skipped;
  * how `update_result` and `update_status` append missing output columns to the header row and write each value under the first column with its label;
  * what repeated updates do to the header row, including updates broken off by a header write that raises.
* `Octoparse` models the scraping-service adapter:
  * the records of a task as a data frame, including the frame's notion of "empty";
  * the name lookup that scans task groups, then the tasks of each group, for the first task with the id.
* `Drive` models the cloud-drive adapter over an abstract store of entries with a listing order:
  * the folder search query and its first result;
  * folder creation metadata;
  * find-or-create;
  * the file link fallback;
  * the task-folder / timestamp-folder / file nesting of an upload.
* `Orchestrator` models `process_task` and the run's loop and tally. Every external call `process_task` makes is an input outcome (`TaskEnv`). The model yields two things:
  * the task's result record, or the exception that escapes `process_task`;
  * the sequence of calls made (`Action`).

Timestamps, the drive's new ids and the services' answers are parameters. The drive's `webViewLink` is an `Option`. The run's clock reading is a string.

Behaviour of the code worth noting:

* `process_task` has no `finally`: the temporary CSV file is removed only when the upload returns, so an upload that raises leaves the file behind (main.py:69-75).
* A failed task's result keeps the full exception text, `str(e)`, as its error (main.py:90). Only the status written to the sheet is shortened, to `"Failed: "` plus the first 50 characters (main.py:92).
* The name lookup for a task without a name runs before the `try` (main.py:31-41). An exception there escapes `process_task`, and `run` does not catch it, so it ends the run (main.py:149-158).
* A name found by the lookup is written to column 2 of the first sheet, whichever column holds the names (main.py:37-39).
* A header write that raises inside `update_result` leaves the header cells written so far in the sheet. When that happens in the `except` branch, the exception is swallowed (main.py:91-94).

## Model

| member | source | states |
|---|---|---|
| Outcomes.Take | main.py:41 | the shortened text is a prefix of the original, of length min(n, len) |
| Sheets.ResolveIsFirstFilled | google_sheets.py:49-50 | the `or` chain of `record.get` yields a non-empty value iff some candidate header holds one, and then it is the value of the first such header |
| Sheets.EnglishThenLocalized | google_sheets.py:49-50 | the English header wins when filled, else the Japanese one, else "" |
| Sheets.RowAt | google_sheets.py:47-57 | record k of the sheet is row k+2 and keeps the raw record |
| Sheets.GetTasks | google_sheets.py:41-61 | every returned task is a record with a non-empty id at its row number, row numbers strictly increase, and every record with an id is returned |
| Sheets.Missing | google_sheets.py:78-82 | reference definition: exactly the labels absent from the header row |
| Sheets.HeaderWrites | google_sheets.py:79-81 | the i-th appended label is written to row 1, column len(headers)+i+1 |
| Sheets.EnsureColumnsKeepsPrefix | google_sheets.py:78-82 | the ensure loop only appends to the header row |
| Sheets.EnsureColumnsGrowsHeaders | google_sheets.py:78-82 | after the loop every label is present, and everything appended was a label that was absent |
| Sheets.EnsureColumnsAppendsOnce | google_sheets.py:78-82 | no label is appended twice |
| Sheets.EnsureColumnsWritesAppended | google_sheets.py:79-81 | the header cells written are exactly the appended labels at their new positions |
| Sheets.EnsureColumnsAppendsMissing | google_sheets.py:71-82 | with distinct labels, the new header row is the old one followed by the missing labels in listed order |
| Sheets.EnsureColumnsIdempotent | google_sheets.py:78-82 | with every label present nothing changes and nothing is written; a second ensure on the result is a no-op |
| Sheets.IndexOf | google_sheets.py:86-89 | `headers.index`: the first position holding the label |
| Sheets.WriteUnder | google_sheets.py:86-89 | a value goes to the given row under the first column headed by its label |
| Sheets.UpdateResult | google_sheets.py:63-89 | headers become old + missing output labels; header writes come first, then file location, record count, status and timestamp, each under its own label |
| Sheets.UpdateStatus | google_sheets.py:91-103 | the status column is appended only when absent, and the status is written under it |
| Sheets.EnsureColumnsSummary | google_sheets.py:78-82 | with distinct labels, the ensure loop leaves the old header row followed by the missing labels, writes exactly those cells of row 1, and every label is then present |
| Sheets.ApplyUpdateIsUpdate | google_sheets.py:78-82 | the header row after a whole status or result update is the old row followed by that call's absent columns |
| Sheets.PartialUpdateLandsFirstWrites | google_sheets.py:78-82 | an update broken off after k header writes landed leaves the old row plus the first k absent labels, a prefix of what the whole update leaves, and those are exactly the cells the update had written |
| Sheets.OneUpdateAppends | google_sheets.py:78-82 | one update, whole or broken off by a header write that raises, keeps the old header row as a prefix and adds at most one copy of an absent output label, none of any other |
| Sheets.RepeatedUpdatesNeverDuplicate | google_sheets.py:63-103 | over any sequence of status and result updates, each whole or broken off after some header writes, the old header row stays a prefix, an absent output label appears at most once, and other headers keep their counts |
| Octoparse.NoColumnsIffFieldless | octoparse_client.py:18-20 | a frame built from records has no columns iff every record is empty |
| Octoparse.GetTaskData | octoparse_client.py:15-20 | a raise propagates unchanged; a missing or empty answer gives the empty frame; otherwise the frame's rows are the records |
| Octoparse.FindTask | octoparse_client.py:35-37 | the first task with the id, or none iff no task has it |
| Octoparse.ScanGroups | octoparse_client.py:32-37 | none iff every group lists and none has the task; a found task has the id and comes from a listed group; a raise is some group's listing failure |
| Octoparse.GetTaskName | octoparse_client.py:30-38 | a failed group listing propagates; "" when no group has the task; a non-empty name belongs to a listed task with the id; a raise is some group's listing failure |
| Octoparse.GetTaskNameIsFirstMatch | octoparse_client.py:30-38 | when all listings succeed, the nested scan equals one first-match search over all tasks in listing order, "" when absent |
| Octoparse.ScanGroupsRaises | octoparse_client.py:32-34 | the lookup raises iff some group's listing raises before an earlier group has the task, with that listing's message |
| Octoparse.LaterGroupsIrrelevant | octoparse_client.py:33-37 | groups after the first match never change the answer |
| Drive.FolderQuery | google_drive.py:23-25 | the query as written: the quoted name and fixed clauses, plus the parent clause iff a parent id is given |
| Drive.UnescapeEscape | google_drive.py:23-25 | reading back an escaped string literal gives the text and what follows the closing quote |
| Drive.EscapedFolderQueryRoundTrip | google_drive.py:23-25 | the escaped query parses back to the same name and parent id, for every name |
| Drive.ListFolders | google_drive.py:27-29 | the drive rejects a query it cannot parse, and otherwise answers the first matching entry |
| Drive.FirstHit | google_drive.py:27-29 | none iff no listed entry matches; otherwise the first matching one |
| Drive.FindFolderAsWritten | google_drive.py:22-29 | the lookup with the query as written answers what the escaped lookup answers, for names and parent ids without quotes or backslashes |
| Drive.FindFolder | google_drive.py:22-29 | none iff no live folder has the name (and parent); a result is such a folder |
| Drive.FindFolderIsFirstHit | google_drive.py:27-29 | the lookup answers the first match in listing order (`pageSize=1`) |
| Drive.PlainQueryIsEscaped | google_drive.py:23-25 | for names and ids without quotes or backslashes, the query as written is the escaped one |
| Drive.QuoteInNameBreaksQuery | google_drive.py:23-25 | the name `Bob's` makes the query as written unreadable, so the lookup raises, while the escaped query is answered |
| Drive.FolderMetadata | google_drive.py:31-37 | a folder named as given, with parents `[id]` iff a parent id is given |
| Drive.CreateFolder | google_drive.py:31-40 | the store gains exactly the new folder, which the lookup now matches |
| Drive.FindOrCreateFolder | google_drive.py:42-44 | an existing match is returned unchanged; otherwise exactly one new folder is created and returned |
| Drive.FindOrCreateFolderAsWritten | google_drive.py:42-44 | raises iff the lookup as written raises, creating nothing; a folder that lookup finds is returned with the store unchanged; otherwise exactly one folder with the name is created under the parent, under the new id; for plain names it is the find-or-create above |
| Drive.FindOrCreateFolderIdempotent | google_drive.py:42-44 | a second call with the same name and parent returns the same folder and creates nothing |
| Drive.BackslashNameLooksUpWithoutIt | google_drive.py:22-29 | as written, in the model's reading of the query syntax (Drive.Unescape, Drive.ParseFolderQuery), the lookup for a task named `a\b` answers the lookup for `ab` |
| Drive.BackslashNameDuplicatesFolder | google_drive.py:42-44 | as written, in the model's reading of the query syntax, when no folder is named `ab`, two calls for `a\b` each create a folder `a\b`: find-or-create is not idempotent for that name |
| Drive.CanonicalLinkRoundTrip | google_drive.py:52 | the fallback link gives back the file id it was built from |
| Drive.UploadFile | google_drive.py:46-53 | the file is stored in the folder; the url is the drive's link when given, else the canonical link for the new id |
| Drive.UploadTaskData | google_drive.py:55-65 | the store gains only the task folder (when not found), a timestamp folder inside it and `data.csv` inside that |
| Drive.StoreUnder | google_drive.py:57-65 | the store gains exactly a timestamp folder inside the task folder and `data.csv` inside that; the url is the drive's link when given, else the canonical link of the file id |
| Drive.UploadTaskDataAsWritten | google_drive.py:55-65 | raises iff the task-folder lookup as written raises; otherwise the task folder is the one find-or-create as written answers, the drive gains exactly that call's folder (if any), a timestamp folder inside it and `data.csv` inside that, and the url is the drive's link or the canonical one; for plain names it is the upload above |
| Drive.QuotedTaskNameFailsUpload | google_drive.py:55-58 | a task named `Bob's` never gets its data uploaded: the upload as written raises |
| Orchestrator.FailureStatus | main.py:92 | the failure status is `"Failed: "` followed by at most 50 leading characters of the message |
| Orchestrator.ResolveName | main.py:30-41 | the sheet's name, else the looked-up name (written back to column 2), else the first 20 characters of the id; a lookup or write-back raise escapes |
| Orchestrator.TryBlock | main.py:53-85 | "In Progress" first; "No Data" iff the fetch gives an empty frame and its record succeeds, with no export or upload; "Success" iff every call returns, with the row count and link |
| Orchestrator.TryStopsAtFirstRaise | main.py:53-90 | the try block completes iff none of its calls raises, and otherwise fails with the first exception |
| Orchestrator.ProcessTask | main.py:22-96 | only name resolution escapes; the status is Success, No Data or Failed; the error is set iff Failed and is the first exception; count and link are zero/empty unless Success; the last sheet write records the outcome |
| Orchestrator.NameWrittenBackOnlyWhenFound | main.py:31-39 | the name cell is written iff the row had no name and the lookup found one, with that name |
| Orchestrator.InProgressBeforeFetch | main.py:53-57 | the row is marked in progress before any fetch, and is marked iff the task finishes |
| Orchestrator.UploadOnlyWithData | main.py:59-75 | a task with no data uploads nothing; the temporary file is removed only after an upload that returned |
| Orchestrator.CountsPartition | main.py:153-158 | every result counts toward exactly one counter |
| Orchestrator.RunWith | main.py:139-158 | tasks are processed in order; the run stops at the first escaping task; otherwise the counters are the per-status counts and sum to the total |
| Orchestrator.Run | main.py:147-158 | with `process_task` as the step: tasks are processed in order; the run stops at the first task whose exception escapes, keeping the earlier results; otherwise the counters are the per-status counts and sum to the total |

## Left out

- Authentication (`auth.py`), client construction and the early returns in `run` when a client or the task list cannot be obtained. The services are inputs.
- Printing and the command-line entry point.
- The scraping service's, spreadsheet's and drive's wire protocols. In `Orchestrator` each call `process_task` makes is an input outcome (`TaskEnv`) that may raise. Inside `Sheets` and `Drive` only the folder query can fail: cell writes, folder creation and the file upload always succeed, except for the broken-off header writes of `Sheets.SheetUpdate`. The drive is an abstract store whose query language is modelled only for the folder query the adapter sends.
- CSV serialization, the temporary file's name and encoding, and the media upload. Writing and removing the file are input outcomes.
- `datetime.now()` and its formatting. The timestamp is a string parameter.
- gspread's conversion of numeric-looking cells. Cells are read as strings.
- Python's `except Exception` not catching `BaseException`. Every raise is an ordinary exception here.
- Orchestrator.Run: each task's call outcomes are independent inputs. The sheet state shared between tasks is modelled separately, by Sheets.RepeatedUpdatesNeverDuplicate.
- Sheets.UpdateResult: `sheet_name` selection is left out; the first sheet is assumed.
- The drive's query syntax (Drive.ParseFolderQuery, Drive.Unescape): the drive's query language is modelled only for the shape of query the adapter sends. A backslash followed by a character other than `'` or `\` is assumed to stand for that character; the drive may reject it instead, and then a name such as `a\b` raises like `Bob's`. A name that closes its literal early and injects a clause the drive can read, such as `x' or name = 'y`, is not modelled: the model rejects every query of another shape.
- Drive.FindFolder: follows the corrected, escaped query (see Findings). Drive.FindFolderAsWritten models the query as written.
- Drive.FindOrCreateFolder: built on the corrected lookup. As written (Drive.FindOrCreateFolderAsWritten), in the model's reading of the query syntax (Drive.Unescape, Drive.ParseFolderQuery), `Bob's` makes it raise, and a backslash escapes the next character, so `a\b` is looked up as `ab` and may find another task's folder.
- Drive.FindOrCreateFolderIdempotent: about the corrected lookup. As written, in the model's reading of the query syntax, `Bob's` makes each call raise, and a name with a backslash such as `a\b` gets a new folder on every call (Drive.BackslashNameDuplicatesFolder).
- Drive.UploadTaskData: built on the corrected lookup. As written (Drive.UploadTaskDataAsWritten), in the model's reading of the query syntax, the task name `Bob's` makes it raise (Drive.QuotedTaskNameFailsUpload), and a task name with a backslash is filed under whichever folder the name without it finds. A folder creation or media upload that raises after the task folder was created, leaving that folder behind, is not modelled.

## Findings

| source | as written | input that shows it | evidently intended | confidence | as-written member | corrected member |
|---|---|---|---|---|---|---|
| google_drive.py:23-25 | the folder name and parent id are put between single quotes without escaping `'` or `\` | a task named `Bob's`: the query reads `name = 'Bob's' and …`, which the drive cannot parse, so every upload for that task raises and the task fails; in the model's reading of the query syntax (Drive.Unescape), a task named `a\b` is looked up as `ab`, so, when no folder is named `ab`, each run creates another `a\b` folder | escape quotes and backslashes in the query literal, so that a task's folder is found for any name | medium, not executed | Drive.QuoteInNameBreaksQuery, Drive.QuotedTaskNameFailsUpload, Drive.BackslashNameDuplicatesFolder | Drive.EscapedFolderQueryRoundTrip, Drive.FindOrCreateFolderIdempotent |

=== FILE: drive.dfy ===
/** The storage-drive adapter: folder lookup and creation, file upload with
    its browsable link, and the per-task folder nesting
    root folder -> task-name folder -> timestamp folder -> data.csv.

    The drive is an abstract store: each id names an entry with a name, an
    optional parent, a trashed flag and whether it is a folder, and the
    store lists ids in creation order. Ids of new entries are chosen by the
    drive and are parameters here. */
module Drive {
  import opened Outcomes

  const FolderMimeType: string := "application/vnd.google-apps.folder"
  const LinkPrefix: string := "https://drive.google.com/file/d/"
  const LinkSuffix: string := "/view"
  const DataFileName: string := "data.csv"

  datatype Entry = Entry(name: string, parent: Option<string>, trashed: bool, folder: bool)

  datatype Store = Store(entries: map<string, Entry>, order: seq<string>)

  /** Ids are non-empty, and the listing order holds every id exactly once. */
  ghost predicate Valid(s: Store)
  {
    && "" !in s.entries
    && (forall id :: id in s.entries <==> id in s.order)
    && (forall i, j :: 0 <= i < j < |s.order| ==> s.order[i] != s.order[j])
  }

  /** A new id the drive may hand out for `s`. */
  predicate FreshId(s: Store, id: string)
  {
    id != "" && id !in s.entries
  }

  /** The body of a create request. */
  datatype Metadata = Metadata(name: string, mimeType: string, parents: seq<string>)

  /** A file or folder together with the store it now lives in. */
  datatype Placed = Placed(store: Store, id: string)

  datatype Uploaded = Uploaded(store: Store, id: string, url: string)

  datatype TaskUpload = TaskUpload(store: Store, taskFolderId: string, timestampFolderId: string,
                                   fileId: string, url: string)

  // ---------------------------------------------------------------------
  // Finding a folder

  /** The pieces of the folder query around the quoted name and parent. */
  const QueryHead: string := "name = '"
  const QueryMiddle: string := " and mimeType = '" + FolderMimeType + "' and trashed = false"
  const ParentHead: string := " and '"
  const ParentTail: string := " in parents"

  /** The query `find_folder_by_name` sends, as written: the name and the
      parent id are put between single quotes unchanged, and the parent
      clause is added only when a parent id is given. */
  function FolderQuery(name: string, parentId: string): (q: string)
    ensures QueryHead + name + "'" + QueryMiddle <= q
    ensures parentId != "" <==> |q| > |QueryHead + name + "'" + QueryMiddle|
    ensures parentId != "" ==> q[|QueryHead + name + "'" + QueryMiddle|..] == ParentHead + parentId + "'" + ParentTail
  {
    var part := PlainParentPart(parentId);
    Regroup(QueryHead, name, QueryMiddle, part);
    SplitAfter(QueryHead + name + "'" + QueryMiddle, part);
    QueryHead + (name + "'" + (QueryMiddle + part))
  }

  /** Moving the parentheses of the query's concatenation. */
  lemma Regroup(head: string, name: string, middle: string, tail: string)
    ensures head + (name + "'" + (middle + tail)) == head + name + "'" + middle + tail
  {
  }

  function PlainParentPart(parentId: string): string
  {
    if parentId != "" then ParentHead + parentId + "'" + ParentTail else ""
  }

  /** A string literal of the drive's query language: a backslash is
      written `\\` and a single quote `\'`. */
  function Escape(text: string): string
  {
    if |text| == 0 then "" else EscapeChar(text[0]) + Escape(text[1..])
  }

  function EscapeChar(c: char): string
  {
    if c == '\\' || c == '\'' then ['\\', c] else [c]
  }

  /** Read a string literal whose opening quote is already consumed, up
      to its closing quote: the text and what follows the quote. This is
      the model's reading of the drive's syntax: a backslash followed by
      any character stands for that character. */
  function Unescape(q: string): Option<(string, string)>
    decreases |q|
  {
    if |q| == 0 then None
    else if q[0] == '\'' then Some(("", q[1..]))
    else
      var skip := if q[0] == '\\' then 2 else 1;
      if |q| < skip then None
      else
        match Unescape(q[skip..])
        case None => None
        case Some((text, rest)) => Some(([q[skip - 1]] + text, rest))
  }

  /** How the drive reads a query of the shape this adapter sends: the
      folder name and the parent id ("" when there is no parent clause),
      or nothing when the query does not parse. */
  function ParseFolderQuery(q: string): Option<(string, string)>
  {
    if !(QueryHead <= q) then None
    else
      match Unescape(q[|QueryHead|..])
      case None => None
      case Some((name, rest)) =>
        match ParseAfterName(rest)
        case None => None
        case Some(parentId) => Some((name, parentId))
  }

  /** The fixed clauses after the name, then an optional parent clause. */
  function ParseAfterName(rest: string): Option<string>
  {
    if !(QueryMiddle <= rest) then None
    else
      var tail := rest[|QueryMiddle|..];
      if tail == "" then Some("") else ParseParentClause(tail)
  }

  /** A parent clause naming a non-empty parent id. */
  function ParseParentClause(tail: string): Option<string>
  {
    if !(ParentHead <= tail) then None
    else
      match Unescape(tail[|ParentHead|..])
      case None => None
      case Some((parentId, after)) =>
        if after == ParentTail && parentId != "" then Some(parentId) else None
  }

  /** The folder query with the name and parent id escaped. */
  function EscapedFolderQuery(name: string, parentId: string): string
  {
    QueryHead + (Escape(name) + "'" + (QueryMiddle + EscapedParentPart(parentId)))
  }

  /** Reading an escaped literal gives back the text and the rest. */
  lemma {:induction false} UnescapeEscape(text: string, rest: string)
    ensures Unescape(Escape(text) + "'" + rest) == Some((text, rest))
    decreases |text|
  {
    var q := Escape(text) + "'" + rest;
    if |text| == 0 {
      assert q == ['\''] + rest;
      assert q[0] == '\'' && q[1..] == rest;
    } else {
      var c, e := text[0], EscapeChar(text[0]);
      var tailQ := Escape(text[1..]) + "'" + rest;
      UnescapeEscape(text[1..], rest);
      assert q == e + tailQ;
      var skip := if c == '\\' then 2 else 1;
      assert |e| == (if c == '\\' || c == '\'' then 2 else 1);
      assert q[0] == e[0] && q[|e| - 1] == c;
      assert q[|e|..] == tailQ;
      assert [c] + text[1..] == text;
      if c == '\'' {
        assert q[0] == '\\';
      }
    }
  }

  /** The escaped query reads back as exactly the name and parent id it
      was built from, so distinct folders get distinct queries. */
  lemma EscapedFolderQueryRoundTrip(name: string, parentId: string)
    ensures ParseFolderQuery(EscapedFolderQuery(name, parentId)) == Some((name, parentId))
  {
    var afterName := QueryMiddle + EscapedParentPart(parentId);
    SplitAfter(QueryHead, Escape(name) + "'" + afterName);
    UnescapeEscape(name, afterName);
    AfterNameRoundTrip(parentId);
  }

  function EscapedParentPart(parentId: string): string
  {
    if parentId != "" then ParentHead + Escape(parentId) + "'" + ParentTail else ""
  }

  lemma AfterNameRoundTrip(parentId: string)
    ensures ParseAfterName(QueryMiddle + EscapedParentPart(parentId)) == Some(parentId)
  {
    var part := EscapedParentPart(parentId);
    SplitAfter(QueryMiddle, part);
    if parentId != "" {
      assert part == ParentHead + (Escape(parentId) + "'" + ParentTail);
      SplitAfter(ParentHead, Escape(parentId) + "'" + ParentTail);
      UnescapeEscape(parentId, ParentTail);
    }
  }

  lemma SplitAfter(a: string, b: string)
    ensures a <= a + b && (a + b)[|a|..] == b
  {
    assert (a + b)[..|a|] == a;
  }

  /** A name with no quote or backslash needs no escaping. */
  predicate Plain(text: string)
  {
    forall i :: 0 <= i < |text| ==> text[i] != '\'' && text[i] != '\\'
  }

  lemma {:induction false} EscapePlain(text: string)
    requires Plain(text)
    ensures Escape(text) == text
    decreases |text|
  {
    if |text| > 0 {
      assert Plain(text[1..]) by {
        forall i | 0 <= i < |text[1..]| ensures text[1..][i] != '\'' && text[1..][i] != '\\' {
          assert text[1..][i] == text[i + 1];
        }
      }
      EscapePlain(text[1..]);
      assert text[0] != '\'' && text[0] != '\\';
      assert [text[0]] + text[1..] == text;
    }
  }

  /** An entry the query for (`name`, `parentId`) is meant to list: a
      folder, not trashed, named `name`, under `parentId` when one is given.
      With no parent the name is matched anywhere in the drive. */
  predicate Matches(e: Entry, name: string, parentId: string)
  {
    e.folder && !e.trashed && e.name == name && (parentId == "" || e.parent == Some(parentId))
  }

  predicate Hit(s: Store, id: string, name: string, parentId: string)
  {
    id in s.entries && Matches(s.entries[id], name, parentId)
  }

  /** `ids[k]` is the first hit in `ids`. */
  ghost predicate FirstHitAt(s: Store, ids: seq<string>, k: int, name: string, parentId: string)
  {
    && 0 <= k < |ids| && Hit(s, ids[k], name, parentId)
    && forall i :: 0 <= i < k ==> !Hit(s, ids[i], name, parentId)
  }

  /** The first id of `ids` that is a hit. */
  function FirstHit(s: Store, ids: seq<string>, name: string, parentId: string): (r: Option<string>)
    ensures r.None? <==> forall i :: 0 <= i < |ids| ==> !Hit(s, ids[i], name, parentId)
    ensures r.Some? ==> exists k :: FirstHitAt(s, ids, k, name, parentId) && ids[k] == r.value
  {
    if |ids| == 0 then None
    else if Hit(s, ids[0], name, parentId) then Some(ids[0])
    else
      var r := FirstHit(s, ids[1..], name, parentId);
      assert forall i :: 1 <= i < |ids| ==> ids[i] == ids[1..][i - 1];
      if r.Some? then
        ghost var k :| FirstHitAt(s, ids[1..], k, name, parentId) && ids[1..][k] == r.value;
        assert FirstHitAt(s, ids, k + 1, name, parentId);
        r
      else r
  }

  /** The drive's answer to a folder listing limited to one result: the
      first folder in listing order that the query selects, or an error for
      a query it cannot read. */
  function ListFolders(s: Store, q: string): (r: Attempt<Option<string>>)
    ensures r.Raised? <==> ParseFolderQuery(q).None?
  {
    match ParseFolderQuery(q)
    case None => Raised("Invalid Value")
    case Some((name, parentId)) => Ok(FirstHit(s, s.order, name, parentId))
  }

  /** `find_folder_by_name` as written, with the unescaped query. For
      names and parent ids without quotes or backslashes it answers what
      the escaped lookup answers. */
  function FindFolderAsWritten(s: Store, name: string, parentId: string): (r: Attempt<Option<string>>)
    ensures Valid(s) && Plain(name) && Plain(parentId) ==> r == Ok(FindFolder(s, name, parentId))
    ensures Valid(s) && r.Ok? && r.value.Some? ==> r.value.value in s.entries
  {
    assert Plain(name) && Plain(parentId) ==> FolderQuery(name, parentId) == EscapedFolderQuery(name, parentId) by {
      if Plain(name) && Plain(parentId) {
        PlainQueryIsEscaped(name, parentId);
      }
    }
    EscapedFolderQueryRoundTrip(name, parentId);
    ListFolders(s, FolderQuery(name, parentId))
  }

  /** `find_folder_by_name` with the escaped query: the first listed folder
      with that name (under that parent, when one is given), or none. */
  function FindFolder(s: Store, name: string, parentId: string): (r: Option<string>)
    requires Valid(s)
    ensures r.None? <==> forall id :: id in s.entries ==> !Matches(s.entries[id], name, parentId)
    ensures r.Some? ==> Hit(s, r.value, name, parentId) && r.value != ""
  {
    EscapedFolderQueryRoundTrip(name, parentId);
    var r := ListFolders(s, EscapedFolderQuery(name, parentId)).value;
    assert forall id :: id in s.entries ==> exists i :: 0 <= i < |s.order| && s.order[i] == id;
    r
  }

  /** For names and parent ids without quotes or backslashes the query as
      written is the escaped one. */
  lemma PlainQueryIsEscaped(name: string, parentId: string)
    requires Plain(name) && Plain(parentId)
    ensures FolderQuery(name, parentId) == EscapedFolderQuery(name, parentId)
  {
    EscapePlain(name);
    EscapePlain(parentId);
    assert EscapedParentPart(parentId) == PlainParentPart(parentId);
  }

  /** A task named `Bob's` yields a query the drive cannot read: the quote
      ends the name's literal early, so the lookup as written raises and
      every upload for that task fails, while the escaped lookup answers. */
  lemma QuoteInNameBreaksQuery(s: Store)
    requires Valid(s)
    ensures FindFolderAsWritten(s, "Bob's", "").Raised?
    ensures ListFolders(s, EscapedFolderQuery("Bob's", "")).Ok?
  {
    var rest := "s" + "'" + QueryMiddle;
    var q := FolderQuery("Bob's", "");
    assert "Bob's" == "Bob" + "'" + "s";
    assert PlainParentPart("") == "";
    QuoteSplit("Bob", "s", QueryMiddle);
    assert q == QueryHead + ("Bob" + ("'" + rest));
    SplitAfter(QueryHead, "Bob" + ("'" + rest));
    UnescapeBob(rest);
    NotTheMiddleClause(rest);
    assert ParseFolderQuery(q).None?;
    EscapedFolderQueryRoundTrip("Bob's", "");
  }

  /** Text starting with `s` is not the clause that follows a name. */
  lemma NotTheMiddleClause(rest: string)
    requires |rest| > 0 && rest[0] == 's'
    ensures ParseAfterName(rest).None?
  {
    assert QueryMiddle[0] == ' ';
  }

  /** A name `x'y` ends its literal at the quote after `x`. */
  lemma QuoteSplit(x: string, y: string, middle: string)
    ensures (x + "'" + y) + "'" + (middle + "") == x + ("'" + (y + "'" + middle))
  {
  }

  /** The literal reading of `Bob'...`: it stops at the quote after `Bob`. */
  lemma UnescapeBob(rest: string)
    ensures Unescape("Bob" + ("'" + rest)) == Some(("Bob", rest))
  {
    var x := "'" + rest;
    assert Unescape(x) == Some(("", rest)) by { assert x[0] == '\'' && x[1..] == rest; }
    UnescapeOrdinary('b', x, "", rest);
    assert ['b'] + "" == ['b'];
    UnescapeOrdinary('o', ['b'] + x, ['b'], rest);
    UnescapeOrdinary('B', ['o'] + (['b'] + x), ['o'] + ['b'], rest);
    assert "Bob" + x == ['B'] + (['o'] + (['b'] + x));
    assert ['B'] + (['o'] + ['b']) == "Bob";
  }

  /** A character other than a quote or a backslash stands for itself. */
  lemma UnescapeOrdinary(c: char, q: string, text: string, rest: string)
    requires c != '\'' && c != '\\' && Unescape(q) == Some((text, rest))
    ensures Unescape([c] + q) == Some(([c] + text, rest))
  {
    assert ([c] + q)[0] == c && ([c] + q)[1..] == q;
  }

  /** In the model's reading of the query syntax (`Unescape`), a
      backslash escapes the character after it, so in the query as written
      a task named `a\b` is looked up as `ab`: the lookup answers for
      another name, and never finds the folder `a\b` itself. */
  lemma BackslashNameLooksUpWithoutIt(s: Store)
    requires Valid(s)
    ensures FindFolderAsWritten(s, "a\\b", "") == Ok(FindFolder(s, "ab", ""))
  {
    UnescapeBackslash(QueryMiddle);
    AsWrittenReadsAs("a\\b", "ab");
    EscapedFolderQueryRoundTrip("ab", "");
  }

  /** With no parent id, the query as written names whatever the literal
      after `name = '` reads as. */
  lemma AsWrittenReadsAs(name: string, text: string)
    requires Unescape(name + ("'" + QueryMiddle)) == Some((text, QueryMiddle))
    ensures ParseFolderQuery(FolderQuery(name, "")) == Some((text, ""))
  {
    assert FolderQuery(name, "") == QueryHead + name + "'" + QueryMiddle;
    HeadAndTail(QueryHead, name, QueryMiddle);
    assert ParseAfterName(QueryMiddle) == Some("") by {
      AfterNameRoundTrip("");
      assert QueryMiddle + EscapedParentPart("") == QueryMiddle;
    }
  }

  /** Where the name's literal starts in a query without a parent clause. */
  lemma HeadAndTail(head: string, name: string, middle: string)
    ensures head <= head + name + "'" + middle
    ensures (head + name + "'" + middle)[|head|..] == name + ("'" + middle)
  {
  }

  /** The literal reading of `a\b'...`: the backslash is dropped. */
  lemma UnescapeBackslash(rest: string)
    ensures Unescape("a\\b" + ("'" + rest)) == Some(("ab", rest))
  {
    var x := "'" + rest;
    assert Unescape(x) == Some(("", rest)) by { assert x[0] == '\'' && x[1..] == rest; }
    var bx := ['\\', 'b'] + x;
    assert Unescape(bx) == Some((['b'] + "", rest)) by { assert bx[0] == '\\' && bx[1] == 'b' && bx[2..] == x; }
    UnescapeOrdinary('a', bx, ['b'] + "", rest);
    assert "a\\b" + x == ['a'] + bx;
    assert ['a'] + (['b'] + "") == "ab";
  }

  // ---------------------------------------------------------------------
  // Creating a folder

  /** `create_folder`'s request body: a folder named `name`, with
      `parents` set to `[parentId]` exactly when a parent is given. */
  function FolderMetadata(name: string, parentId: string): (m: Metadata)
    ensures m.name == name && m.mimeType == FolderMimeType
    ensures m.parents == [parentId] <==> parentId != ""
    ensures parentId == "" <==> m.parents == []
  {
    Metadata(name, FolderMimeType, if parentId != "" then [parentId] else [])
  }

  /** The parent a create request places its entry under. */
  function ParentOf(parents: seq<string>): Option<string>
  {
    if |parents| == 0 then None else Some(parents[0])
  }

  /** Add a new entry under a fresh id at the end of the listing. */
  function Insert(s: Store, newId: string, e: Entry): (s': Store)
    requires Valid(s) && FreshId(s, newId)
    ensures Valid(s')
    ensures s'.entries == s.entries[newId := e]
  {
    var s' := Store(s.entries[newId := e], s.order + [newId]);
    assert forall i :: 0 <= i < |s.order| ==> s'.order[i] == s.order[i];
    assert newId !in s.order;
    s'
  }

  /** `create_folder`: one new, untrashed folder named `name`, placed under
      `parentId` when one is given and at the top of the drive otherwise. */
  function CreateFolder(s: Store, newId: string, name: string, parentId: string): (r: Placed)
    requires Valid(s) && FreshId(s, newId)
    ensures Valid(r.store) && r.id == newId
    ensures r.store.entries ==
      s.entries[newId := Entry(name, if parentId != "" then Some(parentId) else None, false, true)]
    ensures Hit(r.store, r.id, name, parentId)
  {
    var m := FolderMetadata(name, parentId);
    Placed(Insert(s, newId, Entry(m.name, ParentOf(m.parents), false, true)), newId)
  }

  /** `find_or_create_folder`: the folder the query finds, with nothing
      created, or else exactly one new folder with that name and parent. */
  function FindOrCreateFolder(s: Store, newId: string, name: string, parentId: string): (r: Placed)
    requires Valid(s) && FreshId(s, newId)
    ensures Valid(r.store)
    ensures Hit(r.store, r.id, name, parentId)
    ensures FindFolder(s, name, parentId).Some? ==>
      r.store == s && Some(r.id) == FindFolder(s, name, parentId)
    ensures FindFolder(s, name, parentId).None? ==>
      && r.id == newId
      && r.store.entries == s.entries[newId := Entry(name, if parentId != "" then Some(parentId) else None, false, true)]
  {
    var found := FindFolder(s, name, parentId);
    if found.Some? && found.value != "" then Placed(s, found.value)
    else CreateFolder(s, newId, name, parentId)
  }

  /** `find_or_create_folder` as written: a lookup that raises propagates
      and nothing is created; otherwise the found folder, or one new folder
      under `newId`. */
  function FindOrCreateFolderAsWritten(s: Store, newId: string, name: string, parentId: string): (r: Attempt<Placed>)
    requires Valid(s) && FreshId(s, newId)
    ensures r.Raised? <==> FindFolderAsWritten(s, name, parentId).Raised?
    ensures r.Ok? ==> Valid(r.value.store) && forall id :: id in r.value.store.entries ==> id in s.entries || id == newId
    ensures r.Ok? ==> r.value.id in r.value.store.entries
    // A folder the lookup finds is returned and nothing changes; otherwise
    // exactly one folder named `name` is created under the parent.
    ensures var f := FindFolderAsWritten(s, name, parentId);
      f.Ok? && f.value.Some? ==> r == Ok(Placed(s, f.value.value))
    ensures var f := FindFolderAsWritten(s, name, parentId);
      f.Ok? && f.value.None? ==>
        && r.Ok? && r.value.id == newId
        && r.value.store.entries == s.entries[newId := Entry(name, if parentId != "" then Some(parentId) else None, false, true)]
    ensures Plain(name) && Plain(parentId) ==> r == Ok(FindOrCreateFolder(s, newId, name, parentId))
  {
    match FindFolderAsWritten(s, name, parentId)
    case Raised(m) => Raised(m)
    case Ok(found) =>
      if found.Some? && found.value != "" then Ok(Placed(s, found.value))
      else Ok(CreateFolder(s, newId, name, parentId))
  }

  /** In the model's reading of the query syntax, find-or-create as
      written is not idempotent for a name with a backslash: when no folder
      is named `ab`, every call for `a\b` misses the folder the previous
      call created and creates another. */
  lemma BackslashNameDuplicatesFolder(s: Store, firstId: string, secondId: string)
    requires Valid(s) && FreshId(s, firstId) && FreshId(s, secondId) && firstId != secondId
    requires FindFolder(s, "ab", "").None?
    ensures var first := FindOrCreateFolderAsWritten(s, firstId, "a\\b", "");
      && first.Ok? && first.value.id == firstId
      && FreshId(first.value.store, secondId)
      && var second := FindOrCreateFolderAsWritten(first.value.store, secondId, "a\\b", "");
         && second.Ok? && second.value.id == secondId
         && Hit(second.value.store, firstId, "a\\b", "") && Hit(second.value.store, secondId, "a\\b", "")
  {
    BackslashNameLooksUpWithoutIt(s);
    var first := FindOrCreateFolderAsWritten(s, firstId, "a\\b", "");
    var t := first.value.store;
    assert t.entries == s.entries[firstId := Entry("a\\b", None, false, true)];
    assert "a\\b" != "ab" by { assert "a\\b"[1] != "ab"[1]; }
    assert FindFolder(t, "ab", "").None?;
    BackslashNameLooksUpWithoutIt(t);
  }

  /** A hit in the old listing is still a hit after an entry is added
      under a new id, and a new id does not disturb earlier positions. */
  lemma {:induction false} FirstHitAfterInsert(s: Store, ids: seq<string>, newId: string, e: Entry,
                                                 name: string, parentId: string)
    requires newId !in s.entries && newId !in ids
    ensures FirstHit(Store(s.entries[newId := e], s.order + [newId]), ids, name, parentId)
      == FirstHit(s, ids, name, parentId)
    decreases |ids|
  {
    if |ids| > 0 {
      var s' := Store(s.entries[newId := e], s.order + [newId]);
      assert Hit(s', ids[0], name, parentId) == Hit(s, ids[0], name, parentId);
      FirstHitAfterInsert(s, ids[1..], newId, e, name, parentId);
    }
  }

  /** The first hit of a listing with one id appended at the end. */
  lemma {:induction false} FirstHitAppend(s: Store, ids: seq<string>, last: string, name: string, parentId: string)
    ensures FirstHit(s, ids + [last], name, parentId) ==
      if FirstHit(s, ids, name, parentId).Some? then FirstHit(s, ids, name, parentId)
      else if Hit(s, last, name, parentId) then Some(last)
      else None
    decreases |ids|
  {
    if |ids| > 0 {
      assert (ids + [last])[1..] == ids[1..] + [last];
      FirstHitAppend(s, ids[1..], last, name, parentId);
    } else {
      assert [last][1..] == [];
    }
  }

  /** Without concurrent writers, a second `find_or_create_folder` with the
      same name and parent returns the same id and creates nothing, whatever
      id the drive would have handed out. */
  lemma FindOrCreateFolderIdempotent(s: Store, newId: string, newId': string, name: string, parentId: string)
    requires Valid(s) && FreshId(s, newId)
    requires FreshId(FindOrCreateFolder(s, newId, name, parentId).store, newId')
    ensures var r := FindOrCreateFolder(s, newId, name, parentId);
      FindOrCreateFolder(r.store, newId', name, parentId) == r
  {
    var r := FindOrCreateFolder(s, newId, name, parentId);
    FindFolderIsFirstHit(r.store, name, parentId);
    FindFolderIsFirstHit(s, name, parentId);
    if FindFolder(s, name, parentId).None? {
      var e := Entry(name, if parentId != "" then Some(parentId) else None, false, true);
      assert newId !in s.order;
      assert r.store == Store(s.entries[newId := e], s.order + [newId]);
      FirstHitAfterInsert(s, s.order, newId, e, name, parentId);
      FirstHitAppend(r.store, s.order, newId, name, parentId);
      assert FindFolder(r.store, name, parentId) == Some(newId);
    }
  }

  /** The lookup answers the first matching folder in listing order. */
  lemma FindFolderIsFirstHit(s: Store, name: string, parentId: string)
    requires Valid(s)
    ensures FindFolder(s, name, parentId) == FirstHit(s, s.order, name, parentId)
  {
    EscapedFolderQueryRoundTrip(name, parentId);
  }

  // ---------------------------------------------------------------------
  // Uploading

  /** The link built from a file id when the drive returns none. */
  function CanonicalLink(fileId: string): (url: string)
    ensures LinkPrefix <= url
    ensures |url| == |LinkPrefix| + |fileId| + |LinkSuffix|
  {
    var url := LinkPrefix + fileId + LinkSuffix;
    assert url[..|LinkPrefix|] == LinkPrefix;
    url
  }

  /** The file id inside a canonical link, if `url` has that shape. */
  function LinkFileId(url: string): Option<string>
  {
    if |url| >= |LinkPrefix| + |LinkSuffix| && url[..|LinkPrefix|] == LinkPrefix
       && url[|url| - |LinkSuffix|..] == LinkSuffix
    then Some(url[|LinkPrefix|..|url| - |LinkSuffix|])
    else None
  }

  /** The canonical link gives back the file id it was built from, so
      distinct files get distinct links. */
  lemma CanonicalLinkRoundTrip(fileId: string)
    ensures LinkFileId(CanonicalLink(fileId)) == Some(fileId)
  {
    var url := CanonicalLink(fileId);
    assert url == LinkPrefix + fileId + LinkSuffix;
    assert url[..|LinkPrefix|] == LinkPrefix;
    assert url[|url| - |LinkSuffix|..] == LinkSuffix;
    assert url[|LinkPrefix|..|url| - |LinkSuffix|] == fileId;
  }

  /** `upload_file`: a new, untrashed file named `filename` in `folderId`;
      the url is the drive's `webViewLink` when it returns one and the
      canonical link of the new id otherwise. */
  function UploadFile(s: Store, newId: string, filename: string, folderId: string,
                      webViewLink: Option<string>): (r: Uploaded)
    requires Valid(s) && FreshId(s, newId)
    ensures Valid(r.store) && r.id == newId
    ensures r.store.entries == s.entries[newId := Entry(filename, Some(folderId), false, false)]
    ensures webViewLink.Some? ==> r.url == webViewLink.value
    ensures webViewLink.None? ==> LinkFileId(r.url) == Some(newId)
  {
    var store := Insert(s, newId, Entry(filename, Some(folderId), false, false));
    if webViewLink.Some? then Uploaded(store, newId, webViewLink.value)
    else
      CanonicalLinkRoundTrip(newId);
      Uploaded(store, newId, CanonicalLink(newId))
  }

  /** The ids the drive hands out during one task upload, in order of use. */
  datatype NewIds = NewIds(taskFolder: string, timestampFolder: string, file: string)

  predicate FreshIds(s: Store, ids: NewIds)
  {
    && FreshId(s, ids.taskFolder) && FreshId(s, ids.timestampFolder) && FreshId(s, ids.file)
    && ids.taskFolder != ids.timestampFolder && ids.taskFolder != ids.file
    && ids.timestampFolder != ids.file
  }

  /** `upload_task_data`: find or create the task folder under the root,
      create a folder named after the run's timestamp inside it, and upload
      the file there as `data.csv`. */
  function UploadTaskData(s: Store, ids: NewIds, taskName: string, rootId: string, timestamp: string,
                          webViewLink: Option<string>): (r: TaskUpload)
    requires Valid(s) && FreshIds(s, ids)
    ensures Valid(r.store)
    ensures Hit(r.store, r.taskFolderId, taskName, rootId)
    ensures r.taskFolderId in s.entries ==> Some(r.taskFolderId) == FindFolder(s, taskName, rootId)
    ensures r.taskFolderId !in s.entries ==> r.taskFolderId == ids.taskFolder
    ensures r.timestampFolderId == ids.timestampFolder && r.fileId == ids.file
    // The drive gains the task folder (when it was not found), the
    // timestamp folder inside it and the file inside that, and nothing else.
    ensures r.store.entries ==
      (if r.taskFolderId in s.entries then s.entries
       else s.entries[ids.taskFolder := Entry(taskName, if rootId != "" then Some(rootId) else None, false, true)])
      [ids.timestampFolder := Entry(timestamp, Some(r.taskFolderId), false, true)]
      [ids.file := Entry(DataFileName, Some(ids.timestampFolder), false, false)]
    ensures webViewLink.Some? ==> r.url == webViewLink.value
    ensures webViewLink.None? ==> LinkFileId(r.url) == Some(r.fileId)
  {
    var task := FindOrCreateFolder(s, ids.taskFolder, taskName, rootId);
    StoreUnder(task, ids, timestamp, webViewLink)
  }

  /** The steps of `upload_task_data` after the task folder is known: a
      folder named after the timestamp inside it, and `data.csv` inside
      that. */
  function StoreUnder(task: Placed, ids: NewIds, timestamp: string, webViewLink: Option<string>): (r: TaskUpload)
    requires Valid(task.store) && task.id in task.store.entries
    requires FreshId(task.store, ids.timestampFolder) && FreshId(task.store, ids.file)
    requires ids.timestampFolder != ids.file
    ensures Valid(r.store)
    ensures r.taskFolderId == task.id && r.timestampFolderId == ids.timestampFolder && r.fileId == ids.file
    ensures r.store.entries == task.store.entries
      [ids.timestampFolder := Entry(timestamp, Some(task.id), false, true)]
      [ids.file := Entry(DataFileName, Some(ids.timestampFolder), false, false)]
    ensures webViewLink.Some? ==> r.url == webViewLink.value
    ensures webViewLink.None? ==> LinkFileId(r.url) == Some(r.fileId)
  {
    var stamp := CreateFolder(task.store, ids.timestampFolder, timestamp, task.id);
    var file := UploadFile(stamp.store, ids.file, DataFileName, stamp.id, webViewLink);
    TaskUpload(file.store, task.id, stamp.id, file.id, file.url)
  }

  /** `upload_task_data` as written: when the task-folder lookup raises,
      so does the upload, before anything is created; otherwise the
      timestamp folder and the file are nested under whatever folder
      find-or-create answered. */
  function UploadTaskDataAsWritten(s: Store, ids: NewIds, taskName: string, rootId: string, timestamp: string,
                                   webViewLink: Option<string>): (r: Attempt<TaskUpload>)
    requires Valid(s) && FreshIds(s, ids)
    ensures r.Raised? <==> FindFolderAsWritten(s, taskName, rootId).Raised?
    ensures r.Ok? ==>
      && Valid(r.value.store)
      && r.value.timestampFolderId == ids.timestampFolder && r.value.fileId == ids.file
      && ids.timestampFolder in r.value.store.entries && ids.file in r.value.store.entries
      && r.value.store.entries[ids.timestampFolder] == Entry(timestamp, Some(r.value.taskFolderId), false, true)
      && r.value.store.entries[ids.file] == Entry(DataFileName, Some(ids.timestampFolder), false, false)
      && (webViewLink.Some? ==> r.value.url == webViewLink.value)
      && (webViewLink.None? ==> LinkFileId(r.value.url) == Some(r.value.fileId))
    // The drive gains what find-or-create added, the timestamp folder in
    // the task folder and the file in that, and nothing else.
    ensures var t := FindOrCreateFolderAsWritten(s, ids.taskFolder, taskName, rootId);
      r.Ok? ==>
        && t.Ok? && r.value.taskFolderId == t.value.id
        && r.value.store.entries == t.value.store.entries
             [ids.timestampFolder := Entry(timestamp, Some(t.value.id), false, true)]
             [ids.file := Entry(DataFileName, Some(ids.timestampFolder), false, false)]
    ensures Plain(taskName) && Plain(rootId) ==> r == Ok(UploadTaskData(s, ids, taskName, rootId, timestamp, webViewLink))
  {
    match FindOrCreateFolderAsWritten(s, ids.taskFolder, taskName, rootId)
    case Raised(m) => Raised(m)
    case Ok(task) => Ok(StoreUnder(task, ids, timestamp, webViewLink))
  }

  /** A task named `Bob's` never gets its data uploaded by the code as
      written: the upload raises at the task-folder lookup. */
  lemma QuotedTaskNameFailsUpload(s: Store, ids: NewIds, timestamp: string, webViewLink: Option<string>)
    requires Valid(s) && FreshIds(s, ids)
    ensures UploadTaskDataAsWritten(s, ids, "Bob's", "", timestamp, webViewLink).Raised?
  {
    QuoteInNameBreaksQuery(s);
  }
}

=== FILE: octoparse.dfy ===
/** The scraping-service adapter: a task's extracted rows as a table, and
    the lookup of a task's display name by scanning task groups and the
    tasks within each group. The service's listings are inputs; a listing
    call that fails is a `Raised` outcome. */
module Octoparse {
  import opened Outcomes

  /** One task as listed by the service; `taskName` is absent when the
      listing omits the field. */
  datatype TaskInfo = TaskInfo(taskId: string, taskName: Option<string>)

  /** A task group, with the outcome of listing the tasks in it. */
  datatype Group = Group(groupId: string, tasks: Attempt<seq<TaskInfo>>)

  /** One extracted record: field name to value. */
  type Row = map<string, string>

  /** A data frame built from a list of records: its rows, and as columns
      every field that occurs in some record. */
  datatype Table = Table(rows: seq<Row>)
  {
    function Columns(): set<string>
    {
      Fields(rows)
    }

    /** A frame is empty when it has no rows or no columns. */
    predicate Empty()
    {
      |rows| == 0 || Columns() == {}
    }

    /** The number of rows, `len(df)`. */
    function Length(): nat
    {
      |rows|
    }
  }

  /** The union of the field names of all records. */
  function Fields(rows: seq<Row>): set<string>
  {
    if |rows| == 0 then {} else rows[0].Keys + Fields(rows[1..])
  }

  /** A frame has no columns exactly when every record has no fields. */
  lemma {:induction false} NoColumnsIffFieldless(t: Table)
    ensures t.Columns() == {} <==> forall i :: 0 <= i < |t.rows| ==> t.rows[i] == map[]
    decreases |t.rows|
  {
    if |t.rows| > 0 {
      var tail := Table(t.rows[1..]);
      NoColumnsIffFieldless(tail);
      assert forall i :: 1 <= i < |t.rows| ==> t.rows[i] == tail.rows[i - 1];
      if t.rows[0] != map[] {
        var k :| k in t.rows[0];
        assert k in t.Columns();
      }
    }
  }

  /** `get_task_data`: the service's answer (`None` when it returned
      nothing) becomes a frame of its records, or the empty frame when the
      answer is falsy; a failing call propagates. */
  function GetTaskData(response: Attempt<Option<seq<Row>>>): (r: Attempt<Table>)
    ensures response.Raised? <==> r.Raised?
    ensures response.Raised? ==> r.message == response.message
    ensures response.Ok? && (response.value.None? || response.value.value == []) ==> r == Ok(Table([]))
    ensures response.Ok? && response.value.Some? ==> r.Ok? && r.value.rows == response.value.value
  {
    match response
    case Raised(m) => Raised(m)
    case Ok(data) =>
      if data.Some? && data.value != [] then Ok(Table(data.value)) else Ok(Table([]))
  }

  /** `task.get('taskName', '')`. */
  function NameOf(t: TaskInfo): string
  {
    match t.taskName
    case Some(n) => n
    case None => ""
  }

  /** The first task in `tasks` whose id is `id`. */
  function FindTask(tasks: seq<TaskInfo>, id: string): (r: Option<nat>)
    ensures r.None? <==> forall i :: 0 <= i < |tasks| ==> tasks[i].taskId != id
    ensures r.Some? ==>
      && r.value < |tasks| && tasks[r.value].taskId == id
      && forall i :: 0 <= i < r.value ==> tasks[i].taskId != id
  {
    if |tasks| == 0 then None
    else if tasks[0].taskId == id then Some(0)
    else
      match FindTask(tasks[1..], id)
      case None =>
        assert forall i :: 1 <= i < |tasks| ==> tasks[i] == tasks[1..][i - 1];
        None
      case Some(k) =>
        assert forall i :: 1 <= i < |tasks| ==> tasks[i] == tasks[1..][i - 1];
        Some(k + 1)
  }

  /** The inner loop over groups: list each group's tasks in turn and stop
      at the first task with the id; the first failing listing met before
      a match propagates. */
  function ScanGroups(groups: seq<Group>, id: string): (r: Attempt<Option<TaskInfo>>)
    ensures r == Ok(None) <==> NoMatchBefore(groups, |groups|, id)
    ensures r.Ok? && r.value.Some? ==>
      && r.value.value.taskId == id
      && exists g :: 0 <= g < |groups| && groups[g].tasks.Ok? && r.value.value in groups[g].tasks.value
    ensures r.Raised? ==> exists g :: 0 <= g < |groups| && groups[g].tasks == Raised(r.message)
  {
    if |groups| == 0 then Ok(None)
    else
      match groups[0].tasks
      case Raised(m) => Raised(m)
      case Ok(tasks) =>
        match FindTask(tasks, id)
        case Some(i) => Ok(Some(tasks[i]))
        case None =>
          var r := ScanGroups(groups[1..], id);
          assert forall g :: 1 <= g < |groups| ==> groups[g] == groups[1..][g - 1];
          assert NoMatchBefore(groups, |groups|, id) <==> NoMatchBefore(groups[1..], |groups| - 1, id);
          r
  }

  /** `get_task_name`: the name of the first task with the id, "" when no
      listed task has it (or when the matching task has no name field). */
  function GetTaskName(groupListing: Attempt<seq<Group>>, id: string): (r: Attempt<string>)
    ensures groupListing.Raised? ==> r == Raised(groupListing.message)
    ensures groupListing.Ok? && NoMatchBefore(groupListing.value, |groupListing.value|, id) ==> r == Ok("")
    ensures r.Ok? && r.value != "" ==>
      && groupListing.Ok?
      && exists g :: 0 <= g < |groupListing.value| && groupListing.value[g].tasks.Ok?
                     && TaskInfo(id, Some(r.value)) in groupListing.value[g].tasks.value
    ensures r.Raised? && groupListing.Ok? ==>
      exists g :: 0 <= g < |groupListing.value| && groupListing.value[g].tasks == Raised(r.message)
  {
    match groupListing
    case Raised(m) => Raised(m)
    case Ok(groups) =>
      match ScanGroups(groups, id)
      case Raised(m) => Raised(m)
      case Ok(None) => Ok("")
      case Ok(Some(t)) => Ok(NameOf(t))
  }

  // ---------------------------------------------------------------------
  // The nested scan as one linear search

  /** Every group's task listing succeeded. */
  predicate AllListed(groups: seq<Group>)
  {
    forall g :: 0 <= g < |groups| ==> groups[g].tasks.Ok?
  }

  /** All listed tasks, group by group, in listing order. */
  function Flatten(groups: seq<Group>): seq<TaskInfo>
    requires AllListed(groups)
  {
    if |groups| == 0 then [] else groups[0].tasks.value + Flatten(groups[1..])
  }

  /** The same first match as a search of the flattened task list. */
  function FirstNamed(tasks: seq<TaskInfo>, id: string): string
  {
    match FindTask(tasks, id)
    case Some(i) => NameOf(tasks[i])
    case None => ""
  }

  /** A search of two lists in a row finds the first list's match when it
      has one, and otherwise the second list's. */
  lemma {:induction false} FindTaskAppend(a: seq<TaskInfo>, b: seq<TaskInfo>, id: string)
    ensures FindTask(a + b, id) ==
      match FindTask(a, id)
      case Some(i) => Some(i)
      case None =>
        match FindTask(b, id)
        case Some(j) => Some(|a| + j)
        case None => None
    decreases |a|
  {
    if |a| == 0 {
      assert a + b == b;
    } else {
      assert (a + b)[0] == a[0];
      assert (a + b)[1..] == a[1..] + b;
      FindTaskAppend(a[1..], b, id);
    }
  }

  /** When every listing succeeds, the nested group-then-task scan returns
      exactly what a single first-match search over all tasks, in listing
      order, returns. */
  lemma {:induction false} GetTaskNameIsFirstMatch(groups: seq<Group>, id: string)
    requires AllListed(groups)
    ensures GetTaskName(Ok(groups), id) == Ok(FirstNamed(Flatten(groups), id))
    decreases |groups|
  {
    if |groups| > 0 {
      var tasks := groups[0].tasks.value;
      assert AllListed(groups[1..]) by {
        forall g | 0 <= g < |groups[1..]| ensures groups[1..][g].tasks.Ok? {
          assert groups[1..][g] == groups[g + 1];
        }
      }
      GetTaskNameIsFirstMatch(groups[1..], id);
      FindTaskAppend(tasks, Flatten(groups[1..]), id);
      match FindTask(tasks, id)
      case Some(i) =>
      case None =>
        match FindTask(Flatten(groups[1..]), id)
        case Some(j) =>
          assert (tasks + Flatten(groups[1..]))[|tasks| + j] == Flatten(groups[1..])[j];
        case None =>
    }
  }

  /** The name lookup fails exactly when some group's listing fails before
      any earlier group lists a task with the id; the failure is that
      listing's. */
  lemma {:induction false} ScanGroupsRaises(groups: seq<Group>, id: string)
    ensures ScanGroups(groups, id).Raised? <==>
      exists g :: 0 <= g < |groups| && groups[g].tasks.Raised? && NoMatchBefore(groups, g, id)
    ensures forall g :: 0 <= g < |groups| && groups[g].tasks.Raised? && NoMatchBefore(groups, g, id) ==>
      ScanGroups(groups, id) == Raised(groups[g].tasks.message)
    decreases |groups|
  {
    if |groups| > 0 {
      ScanGroupsRaises(groups[1..], id);
      forall g | 1 <= g < |groups|
        ensures NoMatchBefore(groups, g, id) <==>
          (groups[0].tasks.Ok? && FindTask(groups[0].tasks.value, id).None? && NoMatchBefore(groups[1..], g - 1, id))
      {
        NoMatchBeforeShift(groups, g, id);
      }
      assert NoMatchBefore(groups, 0, id);
      if groups[0].tasks.Ok? && FindTask(groups[0].tasks.value, id).None? {
        if ScanGroups(groups[1..], id).Raised? {
          var g :| 0 <= g < |groups[1..]| && groups[1..][g].tasks.Raised? && NoMatchBefore(groups[1..], g, id);
          assert groups[g + 1] == groups[1..][g];
        }
      }
    }
  }

  /** Every group before `g` listed successfully and has no task with the id. */
  ghost predicate NoMatchBefore(groups: seq<Group>, g: int, id: string)
    requires 0 <= g <= |groups|
  {
    forall h :: 0 <= h < g ==> groups[h].tasks.Ok? && FindTask(groups[h].tasks.value, id).None?
  }

  /** No match before group `g` means the first group lists no match and
      none of the rest before `g` does. */
  lemma NoMatchBeforeShift(groups: seq<Group>, g: int, id: string)
    requires 1 <= g <= |groups|
    ensures NoMatchBefore(groups, g, id) <==>
      (groups[0].tasks.Ok? && FindTask(groups[0].tasks.value, id).None? && NoMatchBefore(groups[1..], g - 1, id))
  {
    assert forall h :: 1 <= h < g ==> groups[h] == groups[1..][h - 1];
    if NoMatchBefore(groups[1..], g - 1, id) && groups[0].tasks.Ok? && FindTask(groups[0].tasks.value, id).None? {
      forall h | 0 <= h < g ensures groups[h].tasks.Ok? && FindTask(groups[h].tasks.value, id).None? {
        if h > 0 { assert groups[h] == groups[1..][h - 1]; }
      }
    }
  }

  /** Tasks listed after the first match never affect the result: appending
      further groups, with any content, leaves a found name unchanged. */
  lemma {:induction false} LaterGroupsIrrelevant(groups: seq<Group>, later: seq<Group>, id: string)
    requires ScanGroups(groups, id).Ok? && ScanGroups(groups, id).value.Some?
    ensures ScanGroups(groups + later, id) == ScanGroups(groups, id)
    decreases |groups|
  {
    assert (groups + later)[0] == groups[0];
    match groups[0].tasks
    case Raised(_) =>
    case Ok(tasks) =>
      if FindTask(tasks, id).None? {
        assert (groups + later)[1..] == groups[1..] + later;
        LaterGroupsIrrelevant(groups[1..], later, id);
      }
  }
}

=== FILE: orchestrator.dfy ===
/** The task orchestrator: for one task row, resolve a missing name, mark
    the row in progress, fetch the extracted rows, export and upload them,
    and record the result in the sheet; for a run, process every task in
    row order and tally the outcomes.

    Every call into the sheet, the scraping service, the drive or the file
    system is an input outcome (`TaskEnv`); the model produces the task's
    result record and the sequence of calls made (`Action`), in order. */
module Orchestrator {
  import opened Outcomes
  import Sheets
  import Octoparse

  /** The sheet column the resolved task name is written back to. */
  const NameColumn: int := 2
  /** Length of the task-id prefix used when no name can be found. */
  const FallbackNameLength: nat := 20
  /** Number of characters of an error message shown in the sheet. */
  const ErrorPreviewLength: nat := 50

  const InProgress: string := "In Progress"
  const Success: string := "Success"
  const NoData: string := "No Data"
  const Failed: string := "Failed"
  const FailedPrefix: string := "Failed: "

  /** One external call made while processing a task. */
  datatype Action =
    | LookupName(taskId: string)                     // get_task_name
    | WriteName(row: int, col: int, name: string)     // update_cell on the first sheet
    | SetStatus(row: int, status: string)             // update_status
    | FetchData(taskId: string)                       // get_task_data
    | ExportCsv                                       // write the temporary file
    | Upload(taskName: string, rootFolderId: string)  // upload_task_data
    | RemoveTempFile                                  // unlink the temporary file
    | SetResult(row: int, fileLocation: string, recordCount: int, status: string)  // update_result

  /** What each call returns, or raises, for one task. The write of a
      failure record has no entry: whatever it does is swallowed. */
  datatype TaskEnv = TaskEnv(
    lookup: Attempt<string>,
    nameWrite: Attempt<()>,
    statusWrite: Attempt<()>,
    fetch: Attempt<Option<seq<Octoparse.Row>>>,
    csvWrite: Attempt<()>,
    upload: Attempt<string>,
    cleanup: Attempt<()>,
    resultWrite: Attempt<()>)

  /** The result record `process_task` returns. */
  datatype TaskResult = TaskResult(taskId: string, taskName: string, status: string, recordCount: nat,
                                   fileUrl: string, error: Option<string>)

  /** A task either finishes with a result, or an exception raised while
      resolving its name escapes `process_task`. */
  datatype TaskOutcome =
    | Finished(result: TaskResult, trace: seq<Action>)
    | Escaped(message: string, trace: seq<Action>)

  /** The name-resolution step, which runs before the `try`. */
  datatype NameStep = NameKnown(name: string, trace: seq<Action>) | NameRaised(message: string, trace: seq<Action>)

  /** The `try` block: it completes with a status, or raises. */
  datatype TryStep =
    | Completed(status: string, recordCount: nat, fileUrl: string, trace: seq<Action>)
    | Threw(message: string, trace: seq<Action>)

  /** The text written to the status cell when a task fails. */
  function FailureStatus(message: string): (s: string)
    ensures FailedPrefix <= s
    ensures s[|FailedPrefix|..] <= message
    ensures |s| == |FailedPrefix| + Min(|message|, ErrorPreviewLength)
  {
    var preview := Take(message, ErrorPreviewLength);
    assert (FailedPrefix + preview)[..|FailedPrefix|] == FailedPrefix;
    assert (FailedPrefix + preview)[|FailedPrefix|..] == preview;
    FailedPrefix + preview
  }

  /** Use the sheet's name, else look it up; a found name is written back
      to the sheet, and an unknown one falls back to the id's prefix. */
  function ResolveName(task: Sheets.TaskRow, env: TaskEnv): (s: NameStep)
    ensures s.NameRaised? <==>
      task.taskName == "" && (env.lookup.Raised? || (env.lookup.value != "" && env.nameWrite.Raised?))
    ensures s.NameRaised? ==> s.message == (if env.lookup.Raised? then env.lookup.message else env.nameWrite.message)
    ensures s.NameKnown? && task.taskName != "" ==> s.name == task.taskName
    ensures s.NameKnown? && task.taskName == "" && env.lookup.Ok? && env.lookup.value != "" ==>
      s.name == env.lookup.value
    ensures s.NameKnown? && task.taskName == "" && env.lookup.Ok? && env.lookup.value == "" ==>
      s.name == task.taskId[..Min(|task.taskId|, FallbackNameLength)]
    ensures forall a :: a in s.trace ==> a.LookupName? || a.WriteName?
    ensures forall n :: WriteName(task.rowNumber, NameColumn, n) in s.trace <==>
      task.taskName == "" && env.lookup == Ok(n) && n != ""
    ensures forall a :: a in s.trace && a.WriteName? ==> a.row == task.rowNumber && a.col == NameColumn
  {
    if task.taskName != "" then NameKnown(task.taskName, [])
    else
      var asked := [LookupName(task.taskId)];
      match env.lookup
      case Raised(m) => NameRaised(m, asked)
      case Ok(found) =>
        if found != "" then
          var wrote := asked + [WriteName(task.rowNumber, NameColumn, found)];
          match env.nameWrite
          case Raised(m) => NameRaised(m, wrote)
          case Ok(_) => NameKnown(found, wrote)
        else NameKnown(Take(task.taskId, FallbackNameLength), asked)
  }

  /** The data frame the fetch yields when it does not raise. */
  function Frame(env: TaskEnv): Octoparse.Table
    requires env.fetch.Ok?
  {
    Octoparse.GetTaskData(env.fetch).value
  }

  /** The body of the `try`: mark in progress, fetch, and either record
      "No Data" or export, upload, clean up and record "Success". */
  function TryBlock(task: Sheets.TaskRow, name: string, env: TaskEnv, rootFolderId: string): (t: TryStep)
    // The row is marked in progress first, so before anything is fetched.
    ensures |t.trace| > 0 && t.trace[0] == SetStatus(task.rowNumber, InProgress)
    ensures forall a :: a in t.trace ==> !a.LookupName? && !a.WriteName?
    ensures t.Completed? ==> t.status in {Success, NoData}
    // No data: recorded as such, and nothing is exported or uploaded.
    ensures t.Completed? && t.status == NoData <==>
      && env.statusWrite.Ok? && env.fetch.Ok? && Frame(env).Empty() && env.resultWrite.Ok?
    ensures t.Completed? && t.status == NoData ==>
      && t.recordCount == 0 && t.fileUrl == ""
      && t.trace[|t.trace| - 1] == SetResult(task.rowNumber, "", 0, NoData)
      && forall a :: a in t.trace ==> !a.Upload? && a != ExportCsv
    // Success: every call returned, the frame has rows and columns.
    ensures t.Completed? && t.status == Success <==>
      && env.statusWrite.Ok? && env.fetch.Ok? && !Frame(env).Empty()
      && env.csvWrite.Ok? && env.upload.Ok? && env.cleanup.Ok? && env.resultWrite.Ok?
    ensures t.Completed? && t.status == Success ==>
      && env.upload.Ok? && env.fetch.Ok?
      && t.recordCount == |Frame(env).rows| && t.fileUrl == env.upload.value
      && t.trace[|t.trace| - 1] == SetResult(task.rowNumber, env.upload.value, |Frame(env).rows|, Success)
    // The temporary file is removed only after an upload that succeeded.
    ensures RemoveTempFile in t.trace ==> Upload(name, rootFolderId) in t.trace && env.upload.Ok?
  {
    var row := task.rowNumber;
    var marked := [SetStatus(row, InProgress)];
    if env.statusWrite.Raised? then Threw(env.statusWrite.message, marked)
    else
      var fetched := marked + [FetchData(task.taskId)];
      match Octoparse.GetTaskData(env.fetch)
      case Raised(m) => Threw(m, fetched)
      case Ok(frame) =>
        if frame.Empty() then
          var recorded := fetched + [SetResult(row, "", 0, NoData)];
          if env.resultWrite.Raised? then Threw(env.resultWrite.message, recorded)
          else Completed(NoData, 0, "", recorded)
        else
          var count := frame.Length();
          var exported := fetched + [ExportCsv];
          if env.csvWrite.Raised? then Threw(env.csvWrite.message, exported)
          else
            var uploaded := exported + [Upload(name, rootFolderId)];
            match env.upload
            case Raised(m) => Threw(m, uploaded)
            case Ok(url) =>
              var cleaned := uploaded + [RemoveTempFile];
              if env.cleanup.Raised? then Threw(env.cleanup.message, cleaned)
              else
                var recorded := cleaned + [SetResult(row, url, count, Success)];
                if env.resultWrite.Raised? then Threw(env.resultWrite.message, recorded)
                else Completed(Success, count, url, recorded)
  }

  // ---------------------------------------------------------------------
  // A reference reading of the `try` block as a list of calls

  /** The message of a call that raised. */
  function RaisedMessage<T>(a: Attempt<T>): Option<string>
  {
    match a
    case Raised(m) => Some(m)
    case Ok(_) => None
  }

  /** The calls the `try` block makes, in order, as far as the path the
      fetched data selects. */
  function TryCalls(env: TaskEnv): seq<Option<string>>
  {
    [RaisedMessage(env.statusWrite), RaisedMessage(env.fetch)] +
    match Octoparse.GetTaskData(env.fetch)
    case Raised(_) => []
    case Ok(frame) =>
      if frame.Empty() then [RaisedMessage(env.resultWrite)]
      else [RaisedMessage(env.csvWrite), RaisedMessage(env.upload), RaisedMessage(env.cleanup),
            RaisedMessage(env.resultWrite)]
  }

  /** The first raised message of a list of calls. */
  function FirstRaised(calls: seq<Option<string>>): Option<string>
  {
    if |calls| == 0 then None else if calls[0].Some? then calls[0] else FirstRaised(calls[1..])
  }

  /** The `try` block stops at the first call that raises: it completes
      exactly when no call raised, and otherwise fails with the first
      exception. */
  lemma TryStopsAtFirstRaise(task: Sheets.TaskRow, name: string, env: TaskEnv, rootFolderId: string)
    ensures TryBlock(task, name, env, rootFolderId).Completed? <==> FirstRaised(TryCalls(env)).None?
    ensures TryBlock(task, name, env, rootFolderId).Threw? ==>
      FirstRaised(TryCalls(env)) == Some(TryBlock(task, name, env, rootFolderId).message)
  {
    var calls := TryCalls(env);
    var status, fetch := RaisedMessage(env.statusWrite), RaisedMessage(env.fetch);
    FirstRaisedStep(status, calls[1..]);
    assert calls == [status] + calls[1..];
    if env.statusWrite.Ok? && env.fetch.Ok? {
      var write := RaisedMessage(env.resultWrite);
      if Frame(env).Empty() {
        assert calls[1..] == [fetch] + ([write] + []);
        FirstRaisedStep(fetch, [write] + []);
        FirstRaisedStep(write, []);
      } else {
        var csv, upload, cleanup := RaisedMessage(env.csvWrite), RaisedMessage(env.upload), RaisedMessage(env.cleanup);
        assert calls[1..] == [fetch] + ([csv] + ([upload] + ([cleanup] + ([write] + []))));
        FirstRaisedStep(fetch, [csv] + ([upload] + ([cleanup] + ([write] + []))));
        FirstRaisedStep(csv, [upload] + ([cleanup] + ([write] + [])));
        FirstRaisedStep(upload, [cleanup] + ([write] + []));
        FirstRaisedStep(cleanup, [write] + []);
        FirstRaisedStep(write, []);
      }
    } else if env.statusWrite.Ok? {
      assert calls[1..] == [fetch] + [];
      FirstRaisedStep(fetch, []);
    }
  }

  /** The first raised message of a call followed by more calls. */
  lemma FirstRaisedStep(call: Option<string>, later: seq<Option<string>>)
    ensures FirstRaised([call] + later) == if call.Some? then call else FirstRaised(later)
  {
    assert ([call] + later)[1..] == later;
  }

  /** `process_task`. */
  function ProcessTask(task: Sheets.TaskRow, env: TaskEnv, rootFolderId: string): (o: TaskOutcome)
    // Only name resolution can let an exception out.
    ensures o.Escaped? <==>
      task.taskName == "" && (env.lookup.Raised? || (env.lookup.value != "" && env.nameWrite.Raised?))
    ensures o.Escaped? ==> o.message == (if env.lookup.Raised? then env.lookup.message else env.nameWrite.message)
    // The name used: the sheet's, else the looked-up one, else the id's prefix.
    ensures o.Finished? ==> o.result.taskId == task.taskId
    ensures o.Finished? && task.taskName != "" ==> o.result.taskName == task.taskName
    ensures o.Finished? && task.taskName == "" && env.lookup.Ok? && env.lookup.value != "" ==>
      o.result.taskName == env.lookup.value
    ensures o.Finished? && task.taskName == "" && env.lookup.Ok? && env.lookup.value == "" ==>
      o.result.taskName == task.taskId[..Min(|task.taskId|, FallbackNameLength)]
    ensures o.Finished? ==> |o.trace| > 0
    // Three outcomes, and the file url only on success.
    ensures o.Finished? ==> o.result.status in {Success, NoData, Failed}
    ensures o.Finished? && o.result.status != Success ==> o.result.recordCount == 0 && o.result.fileUrl == ""
    ensures o.Finished? ==> (o.result.error.Some? <==> o.result.status == Failed)
    // The error is the first exception of the `try` block.
    ensures o.Finished? ==> o.result.error == FirstRaised(TryCalls(env))
    // No data: recorded as such, and nothing is uploaded.
    ensures o.Finished? && o.result.status == NoData <==>
      && o.Finished? && env.statusWrite.Ok? && env.fetch.Ok? && Frame(env).Empty() && env.resultWrite.Ok?
    ensures o.Finished? && o.result.status == NoData ==>
      o.trace[|o.trace| - 1] == SetResult(task.rowNumber, "", 0, NoData)
    // Success: the row count and the upload's url, recorded in the sheet.
    ensures o.Finished? && o.result.status == Success <==>
      && o.Finished? && env.statusWrite.Ok? && env.fetch.Ok? && !Frame(env).Empty()
      && env.csvWrite.Ok? && env.upload.Ok? && env.cleanup.Ok? && env.resultWrite.Ok?
    ensures o.Finished? && o.result.status == Success ==>
      && env.upload.Ok? && env.fetch.Ok?
      && o.result.recordCount == |Frame(env).rows|
      && o.result.fileUrl == env.upload.value
      && o.trace[|o.trace| - 1] == SetResult(task.rowNumber, env.upload.value, |Frame(env).rows|, Success)
    // Failure: the shortened message is recorded.
    ensures o.Finished? && o.result.status == Failed ==>
      o.trace[|o.trace| - 1] == SetResult(task.rowNumber, "", 0, FailureStatus(o.result.error.value))
  {
    match ResolveName(task, env)
    case NameRaised(m, asked) => Escaped(m, asked)
    case NameKnown(name, asked) =>
      var row := task.rowNumber;
      var step := TryBlock(task, name, env, rootFolderId);
      TryStopsAtFirstRaise(task, name, env, rootFolderId);
      match step
      case Completed(status, count, url, done) =>
        Finished(TaskResult(task.taskId, name, status, count, url, None), asked + done)
      case Threw(m, done) =>
        Finished(TaskResult(task.taskId, name, Failed, 0, "", Some(m)),
                 asked + done + [SetResult(row, "", 0, FailureStatus(m))])
  }

  /** The sheet's name cell is written only when the row had no name and
      the lookup found one; it is then written with that name. An escaping
      task has only looked the name up or written it. */
  lemma NameWrittenBackOnlyWhenFound(task: Sheets.TaskRow, env: TaskEnv, rootFolderId: string)
    ensures forall n :: WriteName(task.rowNumber, NameColumn, n) in ProcessTask(task, env, rootFolderId).trace <==>
      task.taskName == "" && env.lookup == Ok(n) && n != ""
    ensures ProcessTask(task, env, rootFolderId).Escaped? ==>
      forall a :: a in ProcessTask(task, env, rootFolderId).trace ==> a.LookupName? || a.WriteName?
  {
    var o := ProcessTask(task, env, rootFolderId);
    match ResolveName(task, env)
    case NameRaised(_, asked) =>
    case NameKnown(name, asked) =>
      var step := TryBlock(task, name, env, rootFolderId);
      var done := if step.Completed? then step.trace else step.trace + [SetResult(task.rowNumber, "", 0, FailureStatus(step.message))];
      assert o.trace == asked + done;
      forall n ensures WriteName(task.rowNumber, NameColumn, n) !in done {
        assert WriteName(task.rowNumber, NameColumn, n) !in step.trace;
      }
  }

  /** The row is marked "In Progress" before the data is fetched, and it is
      marked at all exactly when the task does not escape. */
  lemma InProgressBeforeFetch(task: Sheets.TaskRow, env: TaskEnv, rootFolderId: string)
    ensures ProcessTask(task, env, rootFolderId).Finished? <==>
      SetStatus(task.rowNumber, InProgress) in ProcessTask(task, env, rootFolderId).trace
    ensures var trace := ProcessTask(task, env, rootFolderId).trace;
      forall i :: 0 <= i < |trace| && trace[i].FetchData? ==> SetStatus(task.rowNumber, InProgress) in trace[..i]
  {
    var o := ProcessTask(task, env, rootFolderId);
    match ResolveName(task, env)
    case NameRaised(_, asked) =>
      assert forall a :: a in o.trace ==> a.LookupName? || a.WriteName?;
    case NameKnown(name, asked) =>
      var step := TryBlock(task, name, env, rootFolderId);
      var done := if step.Completed? then step.trace else step.trace + [SetResult(task.rowNumber, "", 0, FailureStatus(step.message))];
      assert o.trace == asked + done;
      assert o.trace[|asked|] == SetStatus(task.rowNumber, InProgress);
      forall i | 0 <= i < |o.trace| && o.trace[i].FetchData?
        ensures SetStatus(task.rowNumber, InProgress) in o.trace[..i]
      {
        assert o.trace[..i][|asked|] == o.trace[|asked|];
      }
  }

  /** A task with no data uploads nothing, and the temporary file is removed
      only after an upload that returned. */
  lemma UploadOnlyWithData(task: Sheets.TaskRow, env: TaskEnv, rootFolderId: string)
    ensures ProcessTask(task, env, rootFolderId).Finished? && ProcessTask(task, env, rootFolderId).result.status == NoData ==>
      forall a :: a in ProcessTask(task, env, rootFolderId).trace ==> !a.Upload?
    ensures ProcessTask(task, env, rootFolderId).Finished? && RemoveTempFile in ProcessTask(task, env, rootFolderId).trace ==>
      && env.upload.Ok?
      && Upload(ProcessTask(task, env, rootFolderId).result.taskName, rootFolderId) in ProcessTask(task, env, rootFolderId).trace
  {
    var o := ProcessTask(task, env, rootFolderId);
    match ResolveName(task, env)
    case NameRaised(_, asked) =>
    case NameKnown(name, asked) =>
      var step := TryBlock(task, name, env, rootFolderId);
      var done := if step.Completed? then step.trace else step.trace + [SetResult(task.rowNumber, "", 0, FailureStatus(step.message))];
      assert o.trace == asked + done;
      assert RemoveTempFile !in asked;
  }

  // ---------------------------------------------------------------------
  // The run

  /** The run's counters. */
  datatype Summary = Summary(success: nat, failed: nat, noData: nat, total: nat)

  /** A run prints its summary after the last task, returns early when the
      sheet lists no tasks, and stops at a task whose name resolution
      raised (nothing catches it). */
  datatype RunOutcome =
    | Summarized(summary: Summary, results: seq<TaskResult>)
    | NoTasks
    | Stopped(message: string, results: seq<TaskResult>)

  /** Number of results with the given status. */
  function CountStatus(results: seq<TaskResult>, status: string): nat
  {
    if |results| == 0 then 0
    else CountStatus(results[..|results| - 1], status) + (if results[|results| - 1].status == status then 1 else 0)
  }

  /** Number of results whose status is neither "Success" nor "No Data". */
  function CountOther(results: seq<TaskResult>): nat
  {
    if |results| == 0 then 0
    else
      CountOther(results[..|results| - 1]) +
      (if results[|results| - 1].status !in {Success, NoData} then 1 else 0)
  }

  /** Every result counts toward exactly one counter. */
  lemma {:induction false} CountsPartition(results: seq<TaskResult>)
    ensures CountStatus(results, Success) + CountStatus(results, NoData) + CountOther(results) == |results|
    decreases |results|
  {
    if |results| > 0 {
      CountsPartition(results[..|results| - 1]);
    }
  }

  /** `run`'s loop, for any way `process` of processing one task: process
      the tasks in row order, stop at the first task that lets an exception
      out, and count each finished task under exactly one counter. */
  method RunWith(tasks: seq<Sheets.TaskRow>, envs: seq<TaskEnv>, process: (Sheets.TaskRow, TaskEnv) -> TaskOutcome)
    returns (r: RunOutcome)
    requires |envs| == |tasks|
    ensures r.NoTasks? <==> |tasks| == 0
    ensures r.Summarized? <==> |tasks| > 0 && forall i :: 0 <= i < |tasks| ==> process(tasks[i], envs[i]).Finished?
    ensures r.Summarized? ==>
      && |r.results| == |tasks|
      && (forall i :: 0 <= i < |tasks| ==> r.results[i] == process(tasks[i], envs[i]).result)
      && r.summary.total == |tasks|
      && r.summary.success == CountStatus(r.results, Success)
      && r.summary.noData == CountStatus(r.results, NoData)
      && r.summary.failed == CountOther(r.results)
      && r.summary.success + r.summary.noData + r.summary.failed == r.summary.total
    ensures r.Stopped? ==>
      && |r.results| < |tasks|
      && (forall i :: 0 <= i < |r.results| ==>
            process(tasks[i], envs[i]).Finished? && r.results[i] == process(tasks[i], envs[i]).result)
      && process(tasks[|r.results|], envs[|r.results|]).Escaped?
      && r.message == process(tasks[|r.results|], envs[|r.results|]).message
  {
    if |tasks| == 0 {
      return NoTasks;
    }
    var success, failed, noData := 0, 0, 0;
    var results: seq<TaskResult> := [];
    var i := 0;
    while i < |tasks|
      invariant 0 <= i <= |tasks| && |results| == i
      invariant forall k :: 0 <= k < i ==> process(tasks[k], envs[k]).Finished?
      invariant forall k :: 0 <= k < i ==> results[k] == process(tasks[k], envs[k]).result
      invariant success == CountStatus(results, Success)
      invariant noData == CountStatus(results, NoData)
      invariant failed == CountOther(results)
    {
      var outcome := process(tasks[i], envs[i]);
      if outcome.Escaped? {
        return Stopped(outcome.message, results);
      }
      var result := outcome.result;
      if result.status == Success {
        success := success + 1;
      } else if result.status == NoData {
        noData := noData + 1;
      } else {
        failed := failed + 1;
      }
      assert (results + [result])[..|results|] == results;
      results := results + [result];
      i := i + 1;
    }
    CountsPartition(results);
    return Summarized(Summary(success, failed, noData, |tasks|), results);
  }

  /** `run`, from the task list onward, with `process_task` as the step. */
  method Run(tasks: seq<Sheets.TaskRow>, envs: seq<TaskEnv>, rootFolderId: string) returns (r: RunOutcome)
    requires |envs| == |tasks|
    ensures r.NoTasks? <==> |tasks| == 0
    ensures r.Summarized? <==>
      |tasks| > 0 && forall i :: 0 <= i < |tasks| ==> ProcessTask(tasks[i], envs[i], rootFolderId).Finished?
    ensures r.Summarized? ==>
      && |r.results| == |tasks|
      && (forall i :: 0 <= i < |tasks| ==> r.results[i] == ProcessTask(tasks[i], envs[i], rootFolderId).result)
      && r.summary.total == |tasks|
      && r.summary.success + r.summary.noData + r.summary.failed == |tasks|
      && r.summary.success == CountStatus(r.results, Success)
      && r.summary.noData == CountStatus(r.results, NoData)
      && r.summary.failed == CountOther(r.results)
    ensures r.Stopped? ==>
      && |r.results| < |tasks|
      && (forall i :: 0 <= i < |r.results| ==>
            ProcessTask(tasks[i], envs[i], rootFolderId).Finished?
            && r.results[i] == ProcessTask(tasks[i], envs[i], rootFolderId).result)
      && ProcessTask(tasks[|r.results|], envs[|r.results|], rootFolderId).Escaped?
      && r.message == ProcessTask(tasks[|r.results|], envs[|r.results|], rootFolderId).message
  {
    r := RunWith(tasks, envs, (task, env) => ProcessTask(task, env, rootFolderId));
  }
}

=== FILE: outcomes.dfy ===
/** Shared vocabulary: optional values, calls into external services that
    either return a value or raise, and the prefix slice the program uses
    to shorten text. */
module Outcomes {

  /** A value that may be absent (a missing dictionary key, a `None`). */
  datatype Option<+T> = None | Some(value: T)

  /** The outcome of one call into an external service: it returns a value,
      or it raises an exception whose text is `message`. */
  datatype Attempt<+T> = Ok(value: T) | Raised(message: string)

  /** The smaller of two lengths. */
  function Min(a: nat, b: nat): nat
  {
    if a < b then a else b
  }

  /** The first `min(n, |s|)` elements of `s`: the slice `s[:n]`. */
  function Take<T>(s: seq<T>, n: nat): (r: seq<T>)
    ensures |r| == Min(|s|, n)
    ensures r <= s
  {
    if |s| <= n then s else s[..n]
  }
}

=== FILE: sheets.dfy ===
/** The spreadsheet adapter: turning the sheet's records into task rows, and
    the "make sure the output columns exist, then write by label" step used
    when a task's status or result is recorded.

    A worksheet is seen through its header row (row 1, one label per
    column, columns numbered from 1) and through the cell writes the
    adapter issues. Cell values are text, except the record count. */
module Sheets {
  import opened Outcomes

  /** The localized header labels of the sheet. */
  const TaskIdLabel: string := "タスクID"
  const TaskNameLabel: string := "タスク名"
  const FileLocationLabel: string := "ファイル場所"
  const RecordCountLabel: string := "レコード数"
  const StatusLabel: string := "ステータス"
  const TimestampLabel: string := "更新日時"

  /** Candidate headers for each logical input field, in priority order:
      the English spelling first, then the localized one. */
  const TaskIdHeaders: seq<string> := ["task_id", TaskIdLabel]
  const TaskNameHeaders: seq<string> := ["task_name", TaskNameLabel]

  /** The output columns a result write needs, in the order they are added. */
  const OutputLabels: seq<string> := [FileLocationLabel, RecordCountLabel, StatusLabel, TimestampLabel]

  /** One data row of the sheet: header label to cell text. */
  type Record = map<string, string>

  /** A task read from the sheet; `rowNumber` is its 1-based sheet row. */
  datatype TaskRow = TaskRow(taskId: string, taskName: string, rowNumber: int, raw: Record)

  datatype CellValue = Text(text: string) | Number(n: int)

  /** One `update_cell(row, col, value)` call. */
  datatype CellWrite = CellWrite(row: int, col: int, value: CellValue)

  /** A header row and the cell writes that produced it, in the order they
      are issued: after the ensure step, only the row-1 writes of the
      appended labels; after a whole update, every write of the update. */
  datatype Update = Update(headers: seq<string>, writes: seq<CellWrite>)

  // ---------------------------------------------------------------------
  // Reading tasks

  /** `candidates[i]` is the first candidate header with a non-empty value in `rec`. */
  ghost predicate FirstFilled(rec: Record, candidates: seq<string>, i: int)
  {
    && 0 <= i < |candidates|
    && candidates[i] in rec && rec[candidates[i]] != ""
    && forall j :: 0 <= j < i ==> candidates[j] !in rec || rec[candidates[j]] == ""
  }

  /** The value of the first candidate header present in `rec` with a
      non-empty value, or "" when there is none. With two candidates this
      is `rec.get(a, '') or rec.get(b, '')`. */
  function Resolve(rec: Record, candidates: seq<string>): string
  {
    if |candidates| == 0 then ""
    else if candidates[0] in rec && rec[candidates[0]] != "" then rec[candidates[0]]
    else Resolve(rec, candidates[1..])
  }

  /** Resolution yields a value exactly when some candidate is filled, and
      that value is the one under the first filled candidate. */
  lemma {:induction false} ResolveIsFirstFilled(rec: Record, candidates: seq<string>)
    ensures Resolve(rec, candidates) != "" <==>
      exists i :: 0 <= i < |candidates| && candidates[i] in rec && rec[candidates[i]] != ""
    ensures Resolve(rec, candidates) != "" ==>
      exists i :: FirstFilled(rec, candidates, i) && rec[candidates[i]] == Resolve(rec, candidates)
  {
    if |candidates| > 0 && !(candidates[0] in rec && rec[candidates[0]] != "") {
      ResolveIsFirstFilled(rec, candidates[1..]);
      assert forall i :: 1 <= i < |candidates| ==> candidates[i] == candidates[1..][i - 1];
      var r := Resolve(rec, candidates[1..]);
      if r != "" {
        var k :| FirstFilled(rec, candidates[1..], k) && rec[candidates[1..][k]] == r;
        assert FirstFilled(rec, candidates, k + 1);
      }
    } else if |candidates| > 0 {
      assert FirstFilled(rec, candidates, 0);
    }
  }

  /** With the two spellings of a field: the English value when it is
      non-empty, otherwise the localized value, otherwise "". */
  lemma EnglishThenLocalized(rec: Record, english: string, localized: string)
    ensures Resolve(rec, [english, localized]) ==
      if english in rec && rec[english] != "" then rec[english]
      else if localized in rec then rec[localized]
      else ""
  {
    assert [english, localized][1..] == [localized];
    assert [localized][1..] == [];
    assert Resolve(rec, [localized]) == if localized in rec && rec[localized] != "" then rec[localized] else "";
  }

  /** The task row the sheet's k-th data record (0-based) becomes. */
  function RowAt(records: seq<Record>, k: nat): (t: TaskRow)
    requires k < |records|
    ensures t.rowNumber == k + 2 && t.raw == records[k]
  {
    TaskRow(Resolve(records[k], TaskIdHeaders), Resolve(records[k], TaskNameHeaders), k + 2, records[k])
  }

  /** `t` is the task row of some record of `records`, with a task id. */
  ghost predicate KeptRow(records: seq<Record>, t: TaskRow)
  {
    2 <= t.rowNumber < |records| + 2 && t == RowAt(records, t.rowNumber - 2) && t.taskId != ""
  }

  /** `get_tasks`: number the records from row 2 (row 1 holds the headers)
      and keep those whose resolved task id is non-empty, in sheet order. */
  method GetTasks(records: seq<Record>) returns (tasks: seq<TaskRow>)
    ensures forall j :: 0 <= j < |tasks| ==> KeptRow(records, tasks[j])
    ensures forall j, k :: 0 <= j < k < |tasks| ==> tasks[j].rowNumber < tasks[k].rowNumber
    ensures forall k :: 0 <= k < |records| && RowAt(records, k).taskId != "" ==> RowAt(records, k) in tasks
  {
    tasks := [];
    var k := 0;
    while k < |records|
      invariant 0 <= k <= |records|
      invariant forall j :: 0 <= j < |tasks| ==> KeptRow(records, tasks[j]) && tasks[j].rowNumber < k + 2
      invariant forall j, i :: 0 <= j < i < |tasks| ==> tasks[j].rowNumber < tasks[i].rowNumber
      invariant forall i :: 0 <= i < k && RowAt(records, i).taskId != "" ==> RowAt(records, i) in tasks
    {
      var task := RowAt(records, k);
      if task.taskId != "" {
        ghost var before := tasks;
        tasks := tasks + [task];
        assert forall j :: 0 <= j < |before| ==> tasks[j] == before[j];
        assert tasks[|before|].rowNumber == k + 2;
      }
      k := k + 1;
    }
  }

  // ---------------------------------------------------------------------
  // Header columns

  /** Number of occurrences of `x` in `s`. */
  function Count(s: seq<string>, x: string): nat
  {
    if |s| == 0 then 0 else (if s[0] == x then 1 else 0) + Count(s[1..], x)
  }

  predicate Distinct(s: seq<string>)
  {
    forall i, j :: 0 <= i < j < |s| ==> s[i] != s[j]
  }

  /** The labels of `labels` that `headers` lacks, in order: a reference
      definition for what the ensure step appends. */
  function Missing(labels: seq<string>, headers: seq<string>): (m: seq<string>)
    ensures forall x :: x in m <==> x in labels && x !in headers
    ensures |m| <= |labels|
  {
    if |labels| == 0 then []
    else
      var rest := Missing(labels[1..], headers);
      assert forall x :: x in labels <==> x == labels[0] || x in labels[1..];
      (if labels[0] in headers then [] else [labels[0]]) + rest
  }

  /** The writes that put `added` into row 1 after the `n` existing headers. */
  function HeaderWrites(n: nat, added: seq<string>): (ws: seq<CellWrite>)
    ensures |ws| == |added|
    ensures forall i :: 0 <= i < |ws| ==> ws[i] == CellWrite(1, n + i + 1, Text(added[i]))
    decreases |added|
  {
    if |added| == 0 then [] else [CellWrite(1, n + 1, Text(added[0]))] + HeaderWrites(n + 1, added[1..])
  }

  /** The loop "for each label: if it is not in the header row, write it to
      column len(headers)+1 of row 1 and append it". */
  function EnsureColumns(headers: seq<string>, labels: seq<string>): (r: Update)
    decreases |labels|
  {
    if |labels| == 0 then Update(headers, [])
    else
      var step :=
        if labels[0] in headers then Update(headers, [])
        else Update(headers + [labels[0]], [CellWrite(1, |headers| + 1, Text(labels[0]))]);
      var rest := EnsureColumns(step.headers, labels[1..]);
      Update(rest.headers, step.writes + rest.writes)
  }

  /** The ensure step only ever appends to the header row. */
  lemma {:induction false} EnsureColumnsKeepsPrefix(headers: seq<string>, labels: seq<string>)
    ensures var r := EnsureColumns(headers, labels);
      |headers| <= |r.headers| && r.headers[..|headers|] == headers
    decreases |labels|
  {
    if |labels| > 0 {
      var r := EnsureColumns(headers, labels);
      if labels[0] in headers {
        EnsureColumnsKeepsPrefix(headers, labels[1..]);
      } else {
        var grown := headers + [labels[0]];
        EnsureColumnsKeepsPrefix(grown, labels[1..]);
        assert r.headers[..|headers|] == r.headers[..|grown|][..|headers|];
      }
    }
  }

  /** The ensure step keeps the existing headers as a prefix, leaves every
      label present, and appends only labels that were missing. */
  lemma {:induction false} EnsureColumnsGrowsHeaders(headers: seq<string>, labels: seq<string>)
    ensures var r := EnsureColumns(headers, labels);
      && |headers| <= |r.headers| && r.headers[..|headers|] == headers
      && (forall l :: l in labels ==> l in r.headers)
      && (forall x :: x in r.headers[|headers|..] ==> x in labels && x !in headers)
    decreases |labels|
  {
    EnsureColumnsKeepsPrefix(headers, labels);
    if |labels| > 0 {
      var r := EnsureColumns(headers, labels);
      var l0 := labels[0];
      assert forall l :: l in labels <==> l == l0 || l in labels[1..];
      if l0 in headers {
        EnsureColumnsGrowsHeaders(headers, labels[1..]);
      } else {
        var grown := headers + [l0];
        EnsureColumnsGrowsHeaders(grown, labels[1..]);
        assert r.headers[..|grown|] == grown;
        assert r.headers[|headers|..] == [l0] + r.headers[|grown|..];
        assert l0 in r.headers by { assert r.headers[|headers|] == l0; }
      }
    }
  }

  /** The ensure step appends each label at most once. */
  lemma {:induction false} EnsureColumnsAppendsOnce(headers: seq<string>, labels: seq<string>)
    ensures var r := EnsureColumns(headers, labels);
      |headers| <= |r.headers| && Distinct(r.headers[|headers|..])
    decreases |labels|
  {
    EnsureColumnsKeepsPrefix(headers, labels);
    if |labels| > 0 {
      var r := EnsureColumns(headers, labels);
      var l0 := labels[0];
      if l0 in headers {
        EnsureColumnsAppendsOnce(headers, labels[1..]);
      } else {
        var grown := headers + [l0];
        EnsureColumnsAppendsOnce(grown, labels[1..]);
        EnsureColumnsGrowsHeaders(grown, labels[1..]);
        var added, later := r.headers[|headers|..], r.headers[|grown|..];
        assert r.headers[..|grown|] == grown;
        assert added == [l0] + later;
        assert l0 !in later;
        forall i, j | 0 <= i < j < |added| ensures added[i] != added[j] {
          if i == 0 {
            assert added[j] == later[j - 1];
          } else {
            assert added[i] == later[i - 1] && added[j] == later[j - 1];
          }
        }
      }
    }
  }

  /** The header cells the ensure step writes: each appended label goes to
      the column `len(headers) + 1` of the moment it is appended, which is
      its position in the grown header row. */
  lemma {:induction false} EnsureColumnsWritesAppended(headers: seq<string>, labels: seq<string>)
    ensures var r := EnsureColumns(headers, labels);
      |headers| <= |r.headers| && r.writes == HeaderWrites(|headers|, r.headers[|headers|..])
    decreases |labels|
  {
    if |labels| > 0 {
      var r := EnsureColumns(headers, labels);
      var l0 := labels[0];
      if l0 in headers {
        EnsureColumnsWritesAppended(headers, labels[1..]);
      } else {
        var grown := headers + [l0];
        var rest := EnsureColumns(grown, labels[1..]);
        EnsureColumnsWritesAppended(grown, labels[1..]);
        EnsureColumnsKeepsPrefix(grown, labels[1..]);
        assert r.headers == rest.headers;
        assert r.writes == [CellWrite(1, |headers| + 1, Text(l0))] + rest.writes;
        var added := r.headers[|headers|..];
        assert rest.headers[..|grown|] == grown;
        assert added[0] == l0;
        assert added[1..] == rest.headers[|grown|..];
      }
    }
  }

  /** With distinct labels (as the output labels are), the ensure step
      appends exactly the missing labels, in the order they are listed. */
  lemma {:induction false} EnsureColumnsAppendsMissing(headers: seq<string>, labels: seq<string>)
    requires Distinct(labels)
    ensures EnsureColumns(headers, labels).headers == headers + Missing(labels, headers)
    decreases |labels|
  {
    if |labels| > 0 {
      var l0 := labels[0];
      assert Distinct(labels[1..]) by {
        forall i, j | 0 <= i < j < |labels[1..]| ensures labels[1..][i] != labels[1..][j] {
          assert labels[1..][i] == labels[i + 1] && labels[1..][j] == labels[j + 1];
        }
      }
      if l0 in headers {
        EnsureColumnsAppendsMissing(headers, labels[1..]);
        assert EnsureColumns(headers, labels).headers == EnsureColumns(headers, labels[1..]).headers;
        assert Missing(labels, headers) == [] + Missing(labels[1..], headers);
      } else {
        var grown := headers + [l0];
        EnsureColumnsAppendsMissing(grown, labels[1..]);
        assert EnsureColumns(headers, labels).headers == EnsureColumns(grown, labels[1..]).headers;
        assert Missing(labels, headers) == [l0] + Missing(labels[1..], headers);
        assert grown + Missing(labels[1..], headers) == headers + ([l0] + Missing(labels[1..], headers));
        assert l0 !in labels[1..] by {
          forall j | 0 <= j < |labels[1..]| ensures labels[1..][j] != l0 {
            assert labels[1..][j] == labels[j + 1];
          }
        }
        MissingIgnoresAbsent(labels[1..], headers, l0);
      }
    }
  }

  /** Adding a header that is not among the labels changes nothing missing. */
  lemma {:induction false} MissingIgnoresAbsent(labels: seq<string>, headers: seq<string>, x: string)
    requires x !in labels
    ensures Missing(labels, headers + [x]) == Missing(labels, headers)
    decreases |labels|
  {
    if |labels| > 0 {
      assert labels[0] in headers + [x] <==> labels[0] in headers;
      MissingIgnoresAbsent(labels[1..], headers, x);
    }
  }

  /** When every label is already present the ensure step changes nothing
      and writes nothing; in particular, running it on its own output is a
      no-op. */
  lemma {:induction false} EnsureColumnsIdempotent(headers: seq<string>, labels: seq<string>)
    ensures (forall l :: l in labels ==> l in headers) ==> EnsureColumns(headers, labels) == Update(headers, [])
    ensures var r := EnsureColumns(headers, labels);
      EnsureColumns(r.headers, labels) == Update(r.headers, [])
    decreases |labels|
  {
    EnsureColumnsGrowsHeaders(headers, labels);
    NoChangeWhenPresent(headers, labels);
    NoChangeWhenPresent(EnsureColumns(headers, labels).headers, labels);
  }

  lemma {:induction false} NoChangeWhenPresent(headers: seq<string>, labels: seq<string>)
    ensures (forall l :: l in labels ==> l in headers) ==> EnsureColumns(headers, labels) == Update(headers, [])
    decreases |labels|
  {
    if |labels| > 0 && forall l :: l in labels ==> l in headers {
      assert labels[0] in labels;
      assert forall l :: l in labels[1..] ==> l in labels;
      NoChangeWhenPresent(headers, labels[1..]);
    }
  }

  /** Position (0-based) of the first occurrence of `header`: `headers.index`. */
  function IndexOf(headers: seq<string>, header: string): (i: nat)
    requires header in headers
    ensures i < |headers| && headers[i] == header
    ensures forall j :: 0 <= j < i ==> headers[j] != header
  {
    if headers[0] == header then 0 else 1 + IndexOf(headers[1..], header)
  }

  /** The write of `value` into the column headed by `header`, on `row`. */
  function WriteUnder(headers: seq<string>, row: int, header: string, value: CellValue): (w: CellWrite)
    requires header in headers
    ensures 1 <= w.col <= |headers| && headers[w.col - 1] == header
    ensures forall j :: 0 <= j < w.col - 1 ==> headers[j] != header
    ensures w.row == row && w.value == value
  {
    CellWrite(row, IndexOf(headers, header) + 1, value)
  }

  /** With distinct labels, the ensure step appends the missing labels,
      writes each one to its new column, and leaves every label present. */
  lemma EnsureColumnsSummary(headers: seq<string>, labels: seq<string>)
    requires Distinct(labels)
    ensures var e := EnsureColumns(headers, labels);
      && e.headers == headers + Missing(labels, headers)
      && e.writes == HeaderWrites(|headers|, e.headers[|headers|..])
      && forall l :: l in labels ==> l in e.headers
  {
    EnsureColumnsWritesAppended(headers, labels);
    EnsureColumnsAppendsMissing(headers, labels);
    EnsureColumnsGrowsHeaders(headers, labels);
  }

  lemma SplitWrites(a: seq<CellWrite>, b: seq<CellWrite>)
    ensures (a + b)[..|a|] == a && (a + b)[|a|..] == b
  {
  }

  /** The update that records a result once the ensure step `e` has run
      on `headers`: its header writes, then the four values, each under
      the first column with its label. */
  function RecordResult(headers: seq<string>, e: Update, row: int, fileLocation: string,
                        recordCount: int, status: string, timestamp: string): (u: Update)
    requires |headers| <= |e.headers| && e.writes == HeaderWrites(|headers|, e.headers[|headers|..])
    requires forall l :: l in OutputLabels ==> l in e.headers
    ensures u.headers == e.headers
    ensures var n := |e.headers| - |headers|;
      && |u.writes| == n + 4
      && u.writes[..n] == HeaderWrites(|headers|, u.headers[|headers|..])
      && u.writes[n] == WriteUnder(u.headers, row, FileLocationLabel, Text(fileLocation))
      && u.writes[n + 1] == WriteUnder(u.headers, row, RecordCountLabel, Number(recordCount))
      && u.writes[n + 2] == WriteUnder(u.headers, row, StatusLabel, Text(status))
      && u.writes[n + 3] == WriteUnder(u.headers, row, TimestampLabel, Text(timestamp))
  {
    var cells := [
      WriteUnder(e.headers, row, FileLocationLabel, Text(fileLocation)),
      WriteUnder(e.headers, row, RecordCountLabel, Number(recordCount)),
      WriteUnder(e.headers, row, StatusLabel, Text(status)),
      WriteUnder(e.headers, row, TimestampLabel, Text(timestamp))];
    assert |e.writes| == |e.headers| - |headers|;
    SplitWrites(e.writes, cells);
    Update(e.headers, e.writes + cells)
  }

  /** `update_result`: ensure the four output columns, then write the file
      location, record count, status and timestamp into `row`, each under
      the first column headed by its label. The timestamp is the caller's
      formatted clock reading. */
  function UpdateResult(headers: seq<string>, row: int, fileLocation: string, recordCount: int,
                        status: string, timestamp: string): (u: Update)
    ensures u.headers == headers + Missing(OutputLabels, headers)
    ensures forall l :: l in OutputLabels ==> l in u.headers
    ensures var n := |u.headers| - |headers|;
      && |u.writes| == n + 4
      && u.writes[..n] == HeaderWrites(|headers|, u.headers[|headers|..])
      && u.writes[n] == WriteUnder(u.headers, row, FileLocationLabel, Text(fileLocation))
      && u.writes[n + 1] == WriteUnder(u.headers, row, RecordCountLabel, Number(recordCount))
      && u.writes[n + 2] == WriteUnder(u.headers, row, StatusLabel, Text(status))
      && u.writes[n + 3] == WriteUnder(u.headers, row, TimestampLabel, Text(timestamp))
  {
    var e := EnsureColumns(headers, OutputLabels);
    assert Distinct(OutputLabels);
    EnsureColumnsSummary(headers, OutputLabels);
    RecordResult(headers, e, row, fileLocation, recordCount, status, timestamp)
  }

  /** `update_status`: ensure only the status column, then write `status`
      into `row` under it; every other header is left as it was. */
  function UpdateStatus(headers: seq<string>, row: int, status: string): (u: Update)
    ensures StatusLabel in headers ==> u.headers == headers && |u.writes| == 1
    ensures StatusLabel !in headers ==>
      u.headers == headers + [StatusLabel] && |u.writes| == 2 &&
      u.writes[0] == CellWrite(1, |headers| + 1, Text(StatusLabel))
    ensures u.writes[|u.writes| - 1] == WriteUnder(u.headers, row, StatusLabel, Text(status))
  {
    var e := EnsureColumns(headers, [StatusLabel]);
    assert [StatusLabel][1..] == [];
    var grown := if StatusLabel in headers then headers else headers + [StatusLabel];
    assert EnsureColumns(grown, []) == Update(grown, []);
    assert e.headers == if StatusLabel in headers then headers else headers + [StatusLabel];
    assert e.writes == if StatusLabel in headers then [] else [CellWrite(1, |headers| + 1, Text(StatusLabel))];
    Update(e.headers, e.writes + [WriteUnder(e.headers, row, StatusLabel, Text(status))])
  }

  // ---------------------------------------------------------------------
  // Many updates in a row

  /** One call that writes a task's progress or result into the sheet. */
  datatype SheetCall =
    | StatusCall(row: int, status: string)
    | ResultCall(row: int, fileLocation: string, recordCount: int, status: string, timestamp: string)

  /** The columns a call ensures: the status column for a progress
      update, all four output columns for a result. */
  function CallLabels(call: SheetCall): seq<string>
  {
    if call.StatusCall? then [StatusLabel] else OutputLabels
  }

  /** The update a call makes, given the header row it reads. */
  function UpdateOf(headers: seq<string>, call: SheetCall): Update
  {
    match call
    case StatusCall(row, status) => UpdateStatus(headers, row, status)
    case ResultCall(row, loc, count, status, stamp) => UpdateResult(headers, row, loc, count, status, stamp)
  }

  /** How far a call got: to its end (a value write that raises still
      leaves the header row complete), or until the write of a new header
      cell raised, after `written` header cells had landed. The caller
      swallows that exception when it records a failure. */
  datatype SheetUpdate = Whole(call: SheetCall) | Partial(call: SheetCall, written: nat)

  /** The header row an update leaves in the sheet: the call's absent
      columns, appended in order, as far as their writes landed. */
  function ApplyUpdate(headers: seq<string>, u: SheetUpdate): seq<string>
  {
    var added := Missing(CallLabels(u.call), headers);
    match u
    case Whole(_) => headers + added
    case Partial(_, k) => headers + Take(added, k)
  }

  /** A whole update leaves the header row that `update_status` or
      `update_result` computes. */
  lemma ApplyUpdateIsUpdate(headers: seq<string>, call: SheetCall)
    ensures ApplyUpdate(headers, Whole(call)) == UpdateOf(headers, call).headers
  {
    if call.StatusCall? {
      assert [StatusLabel][1..] == [];
      assert Missing([StatusLabel][1..], headers) == [];
    }
  }

  /** An update broken off after `k` header writes leaves a prefix of the
      whole update's header row, and its new cells are exactly the ones the
      first `k` header writes put into row 1. */
  lemma PartialUpdateLandsFirstWrites(headers: seq<string>, call: SheetCall, k: nat)
    ensures var next := ApplyUpdate(headers, Partial(call, k));
      var u := UpdateOf(headers, call);
      && next <= u.headers
      && |next| == |headers| + Min(k, |u.headers| - |headers|)
      && forall i :: |headers| <= i < |next| ==> u.writes[i - |headers|] == CellWrite(1, i + 1, Text(next[i]))
  {
    UpdateBeginsWithHeaderWrites(headers, call);
    LandedHeaderWrites(headers, Missing(CallLabels(call), headers), UpdateOf(headers, call), k);
  }

  /** Every update first appends the call's absent columns, writing each
      one into row 1. */
  lemma UpdateBeginsWithHeaderWrites(headers: seq<string>, call: SheetCall)
    ensures var added := Missing(CallLabels(call), headers);
      var u := UpdateOf(headers, call);
      && u.headers == headers + added
      && |added| <= |u.writes| && u.writes[..|added|] == HeaderWrites(|headers|, added)
  {
    ApplyUpdateIsUpdate(headers, call);
    if call.StatusCall? {
      assert [StatusLabel][1..] == [];
      assert Missing([StatusLabel][1..], headers) == [];
    }
  }

  /** Of writes that begin with the header writes for `added`, the first
      `k` put the first `k` added labels into their columns of row 1. */
  lemma LandedHeaderWrites(headers: seq<string>, added: seq<string>, u: Update, k: nat)
    requires u.headers == headers + added
    requires |added| <= |u.writes| && u.writes[..|added|] == HeaderWrites(|headers|, added)
    ensures var next := headers + Take(added, k);
      && next <= u.headers
      && |next| == |headers| + Min(k, |u.headers| - |headers|)
      && forall i :: |headers| <= i < |next| ==> u.writes[i - |headers|] == CellWrite(1, i + 1, Text(next[i]))
  {
    var next := headers + Take(added, k);
    assert u.headers[..|next|] == next;
    forall i | |headers| <= i < |next| ensures u.writes[i - |headers|] == CellWrite(1, i + 1, Text(next[i])) {
      var j := i - |headers|;
      assert u.writes[j] == u.writes[..|added|][j];
      assert next[i] == added[j];
    }
  }

  /** The header row after applying `updates` in order. */
  function HeadersAfter(headers: seq<string>, updates: seq<SheetUpdate>): seq<string>
    decreases |updates|
  {
    if |updates| == 0 then headers else HeadersAfter(ApplyUpdate(headers, updates[0]), updates[1..])
  }

  lemma {:induction false} CountAppend(a: seq<string>, b: seq<string>, x: string)
    ensures Count(a + b, x) == Count(a, x) + Count(b, x)
    decreases |a|
  {
    if |a| > 0 {
      assert (a + b)[1..] == a[1..] + b;
      CountAppend(a[1..], b, x);
    } else {
      assert a + b == b;
    }
  }

  lemma {:induction false} CountZeroIffAbsent(s: seq<string>, x: string)
    ensures Count(s, x) == 0 <==> x !in s
    decreases |s|
  {
    if |s| > 0 {
      CountZeroIffAbsent(s[1..], x);
      assert x in s <==> s[0] == x || x in s[1..];
    }
  }

  /** With distinct labels, each missing label is appended exactly once. */
  lemma {:induction false} CountMissing(labels: seq<string>, headers: seq<string>, x: string)
    requires Distinct(labels)
    ensures Count(Missing(labels, headers), x) == if x in labels && x !in headers then 1 else 0
    decreases |labels|
  {
    if |labels| > 0 {
      var rest := Missing(labels[1..], headers);
      assert Distinct(labels[1..]) by {
        forall i, j | 0 <= i < j < |labels[1..]| ensures labels[1..][i] != labels[1..][j] {
          assert labels[1..][i] == labels[i + 1] && labels[1..][j] == labels[j + 1];
        }
      }
      CountMissing(labels[1..], headers, x);
      var head := if labels[0] in headers then [] else [labels[0]];
      assert Missing(labels, headers) == head + rest;
      CountAppend(head, rest, x);
      assert head == [] || head[1..] == [];
      assert x in labels <==> x == labels[0] || x in labels[1..];
      if x == labels[0] {
        forall j | 0 <= j < |labels[1..]| ensures labels[1..][j] != x {
          assert labels[1..][j] == labels[j + 1];
        }
      }
    }
  }

  /** One update, whole or broken off, appends to the headers it is given
      only output labels that were absent, each once. */
  lemma OneUpdateAppends(headers: seq<string>, u: SheetUpdate, x: string)
    ensures var next := ApplyUpdate(headers, u);
      && |headers| <= |next| && next[..|headers|] == headers
      && Count(next, x) == Count(headers, x) + (if x in OutputLabels && x !in headers && x in next then 1 else 0)
      && (x in headers ==> Count(next, x) == Count(headers, x))
  {
    var labels := CallLabels(u.call);
    var added := Missing(labels, headers);
    var landed := if u.Whole? then added else Take(added, u.written);
    assert Distinct(labels) by {
      assert Distinct(OutputLabels);
      assert Distinct([StatusLabel]);
    }
    assert StatusLabel in OutputLabels;
    assert added == landed + added[|landed|..];
    CountAppend(landed, added[|landed|..], x);
    CountAppend(headers, landed, x);
    CountMissing(labels, headers, x);
    CountZeroIffAbsent(landed, x);
    assert ApplyUpdate(headers, u) == headers + landed;
    assert (headers + landed)[..|headers|] == headers;
  }

  /** However many progress and result updates a run makes, and wherever
      their header writes raise, the original header row stays in place, an
      output column that was absent appears at most once, and every other
      header keeps its count. */
  lemma {:induction false} RepeatedUpdatesNeverDuplicate(headers: seq<string>, calls: seq<SheetUpdate>)
    ensures var after := HeadersAfter(headers, calls);
      |headers| <= |after| && after[..|headers|] == headers
    ensures forall x :: x in headers || x !in OutputLabels ==> Count(HeadersAfter(headers, calls), x) == Count(headers, x)
    ensures forall x :: x in OutputLabels && x !in headers ==> Count(HeadersAfter(headers, calls), x) <= 1
    decreases |calls|
  {
    if |calls| > 0 {
      var next := ApplyUpdate(headers, calls[0]);
      var after := HeadersAfter(headers, calls);
      assert after == HeadersAfter(next, calls[1..]);
      RepeatedUpdatesNeverDuplicate(next, calls[1..]);
      forall x ensures (x in headers || x !in OutputLabels ==> Count(after, x) == Count(headers, x))
                    && (x in OutputLabels && x !in headers ==> Count(after, x) <= 1)
      {
        OneUpdateAppends(headers, calls[0], x);
        CountZeroIffAbsent(next, x);
        CountZeroIffAbsent(headers, x);
        if x in OutputLabels && x !in headers {
          if x in next {
            assert Count(after, x) == Count(next, x);
          } else {
            assert Count(after, x) <= 1;
          }
        }
      }
      OneUpdateAppends(headers, calls[0], "");
      assert after[..|headers|] == after[..|next|][..|headers|];
    } else {
      forall x | x !in headers ensures Count(headers, x) == 0 {
        CountZeroIffAbsent(headers, x);
      }
    }
  }
}
